=== FILE: README.md ===
# Must-pass node analysis in Dafny

This project models the core of a small service that answers one question
about a control-flow graph: given an entry node `e1` and a target node `h`,
which nodes must every path from `e1` to `h` go through? The service has two
implementations of the analysis:

- `src/strategy.py` holds two strategies, and the path record the ASC strategy builds:
  - the **naive strategy** enumerates every simple path from `e1` to `h`
    by depth-first search and intersects their node sets;
  - the **articulation-sequence-components (ASC) strategy** takes one shortest
    path `P` from a breadth-first search (`_find_shortest_path`, `backtrace`),
    adds the reversed edges of `P` to a copy of the graph, and runs rounds of
    flood fill. The seed of each round is a must-pass candidate.
- `src/algo.py` holds `PathAnalyser`. It validates the endpoints, then runs a
  recursive depth-first search that records `depth` and `low` values. It adds
  a node `s` to the result when a child `k` other than `h` has
  `low[k] >= depth[s]`.

A graph is a `map<Node, seq<Node>>`: each node maps to its successors, in the
order networkx's `neighbors` enumerates them, and every successor is itself a
key (`Graphs.WellFormed`). The model states its results against walks:
- `Graphs.IsWalk`: a walk is a node sequence whose consecutive nodes are
  joined by edges.
- `Graphs.Reachable`: some walk joins the two nodes.
- `Graphs.MustPass`: a must-pass node is not the target, and every walk from
  `e1` to `h` contains it.

Errors are values of `Graphs.Result`:
- `InvalidNode` for an endpoint that is not a node;
- `Unreachable` for a target that cannot be reached.

Modules:

| module | file | models |
|---|---|---|
| `Graphs` | graphs.dfy | graphs, walks, must-pass nodes, errors, `copy` and `add_edges_from` |
| `Paths` | paths.dfy | the `Path` record, its edge list and its reversal |
| `ShortestPath` | shortest_path.dfy | `_find_shortest_path` and `backtrace` |
| `Naive` | naive.dfy | `NaivePathAnalysisStrategy.analyse_path` with its inner `dfs` |
| `Articulation` | articulation.dfy | `ArticulationSequenceComponentsStrategy.analyse_path` |
| `Analyser` | analyser.dfy | `PathAnalyser`: `__call__`, `_validate_input`, `_articulation_points` |
| `Scenarios` | scenarios.dfy | the graphs of tests/test_algo.py, and the counterexamples of the findings below |

Design decisions:

- **Mutable Python state becomes values.** The recursive searches become pure
  functions. `PathAnalyser`'s five fields become one `SearchState` value,
  threaded through the recursion and created fresh (`Analyser.Fresh`) on
  every call. So repeated calls on the same graph and endpoints return the
  same result by construction.
- **One Dafny function per step of `_articulation_points`.** The `for` loop
  over `G.neighbors(s)` is `Children`, and one pass of it is `Child`. The
  update of `low[s]` and of the result is `Lower`.
- **ASC colours and flags become sets.** Colours are only ever compared with
  0, and every colour assigned is at least 1, so the colour map `comp` is
  modelled as the set of coloured nodes. The flag map `out` is modelled as the
  set of nodes whose flag is 0 ("in").
- **ASC's loop variable is modelled as shadowed.** At src/strategy.py:99-102
  the loop variable `i` overwrites the round counter. So the seed of a later
  round is the path node just before the first uncoloured one, and the
  counter continues from that index. The model does the same.

## Model

| member | source | states |
|---|---|---|
| Graphs.AddEdge | src/strategy.py:82 | networkx's `add_edge`, one edge of `add_edges_from`: missing endpoints become nodes; the edges are the old ones plus `(u, v)`; only `u`'s successor list changes, and only by appending `v` when the edge is not already present, so a graph without repeated successors keeps none |
| Graphs.AddEdges | src/strategy.py:81-82 | the working copy has the original nodes (when every added edge joins existing nodes); its edges are exactly the original edges plus the added ones; every original successor list is kept as a prefix, and unchanged when no added edge leaves its node; no successor is repeated; well-formedness is preserved |
| Paths.Reverse | src/strategy.py:79 | `[::-1]`: same length, element `i` is element `n-1-i` of the input |
| Paths.Consecutive | src/strategy.py:78 | `zip(P, P[1:])`: one pair per consecutive pair of nodes, in order |
| Paths.PathOf | src/strategy.py:78 | `(u, v)` is a path edge exactly when `u` is immediately followed by `v` in the node list |
| Paths.ReversedPath | src/strategy.py:79 | the reversed path lists the nodes backwards, and holds `(u, v)` exactly when the path holds `(v, u)` |
| ShortestPath.Backtrace | src/strategy.py:154-159 | following predecessors from `end` yields a sequence from `start` to `end` of length `dist[end] + 1`, whose node `j` is at level `j` and is the predecessor of node `j + 1` |
| ShortestPath.ExpandNode | src/strategy.py:140-144 | after the successors of a level-`i` node are scanned, every one of them is found; each newly found one is recorded at level `i + 1` with that node as predecessor; earlier finds, levels and predecessors are kept |
| ShortestPath.ExpandLevel | src/strategy.py:139-145 | after a level is expanded, the next level is exactly the newly found nodes, in both directions; the levels found earlier are kept; every node below the new level has all its successors found at most one level further; no new level means nothing new was found |
| ShortestPath.WalkWithinLevels | src/strategy.py:138-145 | once the search stops, every walk from the source ends at a found node whose level is at most the walk's number of edges |
| ShortestPath.FindShortestPath | src/strategy.py:122-152 | the result is empty exactly when the target is unreachable; otherwise it is a simple path from source to target no longer than any walk between them |
| Naive.Dfs | src/strategy.py:33-42 | every path the inner `dfs` appends extends the current path by `start` and ends at `h`; reaching `h` appends exactly the current path and stops |
| Naive.Explore | src/strategy.py:38-42 | every path the successor loop appends extends the current path by one successor not already on it, and ends at `h` |
| Naive.DfsSound | src/strategy.py:33-42 | every path `dfs` collects is the current path extended by a walk to `h` that repeats no node; so it starts at `e1`, ends at `h` and has `h` only at its end |
| Naive.ExploreSound | src/strategy.py:38-42 | a path collected by the successor loop comes from the search of one successor that was not on the current path |
| Naive.DfsComplete | src/strategy.py:33-42 | every simple extension of the current path that reaches `h` is collected |
| Naive.ExploreComplete | src/strategy.py:38-42 | the successor loop collects every path that the search of any admissible successor collects |
| Naive.AllPathsExact | src/strategy.py:44-45 | `all_paths` holds exactly the simple paths from `e1` to `h` |
| Naive.Intersection | src/strategy.py:50-52 | a node is in the intersection exactly when it is on every collected path |
| Naive.Analyse | src/strategy.py:24-55 | a source that is neither a node nor the target fails with InvalidNode; otherwise the call fails with Unreachable exactly when `h` is unreachable; on success the result is exactly the must-pass set, never holds `h`, and holds `e1` when `e1 != h` |
| Articulation.InitialInFlags | src/strategy.py:83-88 | the flag starts "in" exactly on the inner nodes of the path; `e1`, `h` and off-path nodes start "out" |
| Articulation.FirstUncoloured | src/strategy.py:99-101 | the scan stops at the first uncoloured path node: every earlier node is coloured |
| Articulation.FirstUncolouredBound | src/strategy.py:99-101 | a coloured prefix never reaches past the first uncoloured node, so the scan index grows as colours are added |
| Articulation.SettledSuccessor | src/strategy.py:110-114 | once the queue is empty, every successor of a reached node flagged "out" is coloured |
| Articulation.FloodRound | src/strategy.py:108-116 | a round only adds colours and only moves flags from "in" to "out"; every node it colours or re-flags can be reached from the seed by moves the fill permits, so nothing else is touched; when it ends, the seed and every node it touched has no permitted move left |
| Articulation.ScanSuccessors | src/strategy.py:110-116 | one pass over the successors of a node taken from the queue: only permitted moves colour and enqueue, each new node is reachable from the seed by permitted moves, a cleared flag belongs to an enqueued node, and the node is left settled unless it was enqueued again |
| Articulation.Prepare | src/strategy.py:75-88 | the reversed path holds `(u, v)` exactly when the path holds `(v, u)`; the working graph has the caller's nodes, and its edges are the original edges plus the reversed path edges; the inner path nodes start "in", and the endpoints start "out" |
| Articulation.AnalyseOnPath | src/strategy.py:91-119 | the rounds terminate, because the first uncoloured path index grows every round; the result holds `e1`, never `h`, and otherwise only path nodes |
| Articulation.Analyse | src/strategy.py:66-119 | for a reachable target: the result holds `e1`, excludes `h` unless `e1 == h` (then it is `{e1}`), and lies on one shortest path from `e1` to `h` |
| Analyser.Enter | src/algo.py:47-49 | `s` becomes visited, with depth and low both `d`; nothing recorded for other nodes changes |
| Analyser.Visit | src/algo.py:41-58 | the search from `s` visits it at depth `d`, never changes what was recorded for earlier nodes, and leaves every node it visited (other than `h`) with all its successors visited |
| Analyser.Children | src/algo.py:53-58 | after the loop every successor is visited; the depths of earlier nodes are kept, and only `s`'s own low value and result membership can change |
| Analyser.Child | src/algo.py:54-58 | `k` ends up visited, and a `k` not visited before gets its parent's depth plus one; `low[s]` does not grow and ends at most `low[k]`; `s` joins the result exactly when `k != h` and `low[k] >= depth[s]` |
| Analyser.Lower | src/algo.py:56-58 | `low[s]` becomes the smaller of `low[s]` and `low[k]`; `s` joins the result exactly when `k != h` and `low[k] >= depth[s]`; nothing else changes |
| Analyser.LowerConsistent | src/algo.py:56-58 | the update keeps `0 <= low <= depth`, and keeps `h` out of the result |
| Analyser.EnterConsistent | src/algo.py:47-52 | entering a node keeps the search invariant, with `h_found` exactly when `h` is visited |
| Analyser.VisitConsistent | src/algo.py:41-58 | the search keeps its invariant: depths are lengths of walks from `e1`, `0 <= low <= depth`, `h` is never in the result, and every result node has a successor other than `h` |
| Analyser.ChildrenConsistent | src/algo.py:53-58 | the successor loop of a visited node `s` other than `h`, at depth `d`, keeps the search invariant; its children are searched at depth `d + 1`, so every recorded depth stays the length of a walk from `e1` |
| Analyser.ChildConsistent | src/algo.py:54-58 | one pass of the successor loop keeps the search invariant; `low[k]` is read only once `k` is visited |
| Analyser.SourceJoins | src/algo.py:53-58 | the loop over `e1`'s successors adds `e1` exactly when some successor is not `h` |
| Analyser.ValidateInput | src/algo.py:28-38 | succeeds exactly when both endpoints are nodes; `e1` is checked before `h` |
| Analyser.ClosedReaches | src/algo.py:50-55 | if the visited set contains `e1` and every visited node other than `h` has all its successors visited, then any walk from `e1` ends inside the set unless `h` is in it |
| Analyser.Analyse | src/algo.py:13-25 | a missing `e1`, then a missing `h`, fails with InvalidNode before any search; otherwise the call fails with Unreachable exactly when `h` is unreachable. On success, every result node is reachable from `e1`, is not `h`, and has a successor other than `h` |
| Analyser.SourceInResult | src/algo.py:47-58 | for a reachable target, `e1` is in the result exactly when `e1 != h` and `e1` has a successor other than `h` |
| Analyser.AnalyseMustPass | src/algo.py:13-25 | the corrected analyser: the same validation and errors, and on success exactly the must-pass nodes |
| Scenarios.ScenarioA | tests/test_algo.py:5-11 | on `1->2, 2->3, 2->5, 5->2, 3->5` with `e1 = 1`, `h = 5` the result is `{1, 2}` |
| Scenarios.ScenarioB | tests/test_algo.py:13-19 | adding `5->6` leaves the result `{1, 2}` |
| Scenarios.ScenarioAMustPass | tests/test_algo.py:5-11 | on scenario A, the must-pass nodes are the same `{1, 2}` |
| Scenarios.ScenarioCAsWritten | tests/test_algo.py:22-28 | on the ten-edge graph with `h = 8`, the analyser as written leaves out 7, so it does not return the `{1, 4, 7}` the test expects |
| Scenarios.ScenarioCMustPass | tests/test_algo.py:22-28 | on the ten-edge graph, the corrected analyser returns `{1, 4, 7}` |
| Scenarios.NotReported | src/algo.py:57 | on any graph with a reachable target, a node whose only successor is `h` is left out of the result, however many paths go through it |
| Scenarios.SingleEdgeAsWritten | src/algo.py:57 | on a single edge `1->2`, the analyser as written returns `{}`, although 1 is must-pass |
| Scenarios.SingleEdgeMustPass | src/algo.py:57 | on a single edge `1->2`, the corrected analyser returns `{1}` |
| Scenarios.DiamondAsWritten | src/algo.py:53-58 | on `1->2, 1->3, 2->4, 3->4, 4->5` with `h = 5`, the analyser as written returns `{1, 2, 3}` |
| Scenarios.DiamondDiffers | src/algo.py:56-57 | on that diamond, 2 and 3 are not must-pass, and 4 is must-pass |
| Scenarios.DiamondMustPass | src/algo.py:56-57 | on that diamond, the corrected analyser returns `{1, 4}` |
| Scenarios.DeadEndAsWritten | src/algo.py:53-58 | on `1->2, 2->9, 1->4` with `h = 4`, the analyser as written returns `{1, 2}` |
| Scenarios.DeadEndDiffers | src/algo.py:56-57 | on that graph, 2 is not must-pass, and `h` cannot even be reached from 2 |
| Scenarios.DeadEndMustPass | src/algo.py:56-57 | on that graph, the corrected analyser returns `{1}` |

## Left out

- src/api.py is not part of this model. It holds the HTTP endpoint, a stub
  returning `{1, 2}`, and the mapping of every exception to a server error;
  all of that is transport.
- src/parser.py and DOT parsing are not part of this model; they are a
  wrapper over pydot and networkx. A graph is given directly as a map.
- The logging calls in src/algo.py are left out.
- networkx internals are modelled only by their effect:
  - `neighbors` is the stored successor sequence;
  - `copy` is value semantics, since a Dafny map is never mutated in place;
  - `add_edges_from` appends only edges not already present.
- Python recursion limits are left out. So is the exponential running time
  of the naive enumeration.
- ShortestPath.FindShortestPath requires `source` to be a node. networkx
  raises on `neighbors` of a missing node, and that exception is not
  modelled. Its only caller passes `e1`, which the ASC strategy requires to be
  a node.
- Articulation.Analyse requires `e1` to be a node and `h` to be reachable.
  On an unreachable target the source crashes with an IndexError at
  src/strategy.py:102, because the empty path has no node to index. That
  crash is not modelled.
- Articulation.Analyse does not prove that its result is the set of
  must-go-through nodes that the docstring at src/strategy.py:72 documents.
  That would need the correctness argument of articulation sequence
  components, so the contract only bounds the result: it holds `e1`,
  excludes `h`, and lies on a shortest path.
- Articulation.AnalyseOnPath does not state which path nodes the rounds
  choose as seeds, so its contract admits `{e1}` on any path. Like
  Articulation.Analyse, it is not proved to return the must-go-through set
  that src/strategy.py:72 documents, for the same reason.
- Articulation.FloodRound models colours as membership in a set, so the
  round number stored as a colour is not kept. Nothing reads it except the
  comparison with 0.
- Analyser.Analyse does not characterise its result exactly. Beyond the
  bounds it states, the result depends on the successor order, and it is not
  the must-pass set (see Findings).

Both strategies it stands beside document their result as "a set of
must-go-through nodes" (src/strategy.py:30, src/strategy.py:72).
tests/test_algo.py:22-28 expects `{1, 4, 7}` from `PathAnalyser`, and that is
exactly the must-pass set of that graph. Node 7 is in it although its only
successor is the target. Where the code of src/algo.py departs from that
intent, the model follows the code and records the difference under
Findings.

## Findings

| source | as written | input that shows it | evidently intended | confidence | as-written member | corrected member |
|---|---|---|---|---|---|---|
| src/algo.py:57 | a node joins the result only through a child `k != h`, so a node whose only successor is `h` is never reported | the single edge `1->2` with `e1 = 1`, `h = 2` gives `{}`; the ten-edge graph of tests/test_algo.py:22-28 loses 7 | every must-go-through node, as src/strategy.py:30 and src/strategy.py:72 document for the strategies: `{1, 4, 7}` as tests/test_algo.py:22-28 expects, where 7 is kept although its only successor is `h`; by the same reading `{1}` for the single edge | not executed | Scenarios.SingleEdgeAsWritten | Scenarios.SingleEdgeMustPass |
| src/algo.py:56-57 | `low[k] >= depth[s]` is the articulation-point test of an undirected depth-first search. On a directed graph it holds whenever the search below `k` does not lead back above `s`, which says nothing about whether `h` can be reached around `s`. So nodes with a way around them are reported, and so are nodes on branches that never reach `h` | the diamond `1->2, 1->3, 2->4, 3->4, 4->5` with `e1 = 1`, `h = 5` gives `{1, 2, 3}`; the dead end `1->2, 2->9, 1->4` with `h = 4` gives `{1, 2}` | the must-pass nodes: `{1, 4}` for the diamond, `{1}` for the dead end | not executed | Scenarios.DiamondAsWritten | Scenarios.DiamondMustPass |

Both rows use the same two definitions:
- **As written.** `Analyser.Analyse` models the code. The lemmas in the
  as-written column, with `Scenarios.ScenarioCAsWritten` and
  `Scenarios.DeadEndAsWritten`, compute its result on the inputs shown.
  `Scenarios.ScenarioCAsWritten`, `Scenarios.DiamondDiffers` and
  `Scenarios.DeadEndDiffers` also show that this result is not the
  must-pass set.
- **Corrected.** `Analyser.AnalyseMustPass` keeps the same validation and
  errors and returns exactly the must-pass nodes. The lemmas in the corrected
  column and `Scenarios.DeadEndMustPass` prove its result on the same
  inputs, and `Scenarios.ScenarioCMustPass` proves the `{1, 4, 7}` of
  tests/test_algo.py:22-28.

The two scenarios whose expectations the code meets, tests/test_algo.py:5-19,
are proved for the code as written (`Scenarios.ScenarioA`,
`Scenarios.ScenarioB`).

=== FILE: analyser.dfy ===
/**
  `PathAnalyser` of algo.py: validates both endpoints, then runs a
  depth-first search from `e1` that records `depth` and `low` values and
  adds a node `s` to the result when a child `k` other than `h` has
  `low[k] >= depth[s]`.

  The search's fields (`visited`, `depth`, `low`, `result`, `h_found`) are
  one `SearchState` value, threaded through the recursion and created
  fresh by every call.
 */
module Analyser {
  import opened Graphs
  import Naive

  datatype SearchState = SearchState(
    visited: set<Node>,
    depth: map<Node, int>,
    low: map<Node, int>,
    result: set<Node>,
    hFound: bool)

  /** The fields as `__call__` resets them. */
  function Fresh(): SearchState {
    SearchState({}, map[], map[], {}, false)
  }

  /** Exactly the visited nodes, all of them nodes of `g`, have a depth and
      a low value (so reading them never falls back on a default). */
  predicate Shaped(g: Graph, st: SearchState) {
    st.visited <= g.Keys && st.depth.Keys == st.visited && st.low.Keys == st.visited
  }

  /** `v` is reached from `e1` by a walk of exactly `n` edges. */
  ghost predicate ReachIn(g: Graph, e1: Node, v: Node, n: int) {
    exists q :: IsWalk(g, q, e1, v) && |q| == n + 1
  }

  /** What the search keeps true besides its shape: a visited node's depth
      is the number of edges of some walk from `e1` to it, and its low value
      lies between 0 and its depth; the result holds visited nodes other
      than `h`, each with a successor other than `h`; `h_found` records
      whether `h` was visited. */
  ghost predicate Consistent(g: Graph, e1: Node, h: Node, st: SearchState) {
    && Shaped(g, st)
    && (forall v :: v in st.visited ==> 0 <= st.low[v] <= st.depth[v] && ReachIn(g, e1, v, st.depth[v]))
    && st.result <= st.visited
    && h !in st.result
    && (forall v :: v in st.result ==> ExitAvoidingTarget(g, h, v))
    && (st.hFound <==> h in st.visited)
  }

  /** `v` has a successor other than `h`. */
  ghost predicate ExitAvoidingTarget(g: Graph, h: Node, v: Node) {
    v in g && exists j :: 0 <= j < |g[v]| && g[v][j] != h
  }

  /** Every node visited after `before` other than `h` has all its
      successors visited in `after`. */
  ghost predicate ClosedSince(g: Graph, h: Node, before: set<Node>, after: set<Node>) {
    forall x, j :: x in after && x !in before && x != h && x in g && 0 <= j < |g[x]| ==> g[x][j] in after
  }

  /** A walk of `d` edges to `s` followed by the edge `s -> k` is a walk of
      `d + 1` edges to `k`. */
  lemma ReachInStep(g: Graph, e1: Node, s: Node, k: Node, d: int)
    requires ReachIn(g, e1, s, d)
    requires HasEdge(g, s, k)
    ensures ReachIn(g, e1, k, d + 1)
  {
    var q :| IsWalk(g, q, e1, s) && |q| == d + 1;
    WalkSnoc(g, q, e1, s, k);
  }

  lemma ClosedSinceTrans(g: Graph, h: Node, a: set<Node>, b: set<Node>, c: set<Node>)
    requires ClosedSince(g, h, a, b) && ClosedSince(g, h, b, c)
    requires a <= b <= c
    ensures ClosedSince(g, h, a, c)
  {
  }

  /** The first three lines of `_articulation_points`: `s` is marked
      visited and its depth and low value are both set to `d`. */
  function Enter(g: Graph, s: Node, d: int, st: SearchState): (st': SearchState)
    requires s in g && s !in st.visited
    requires Shaped(g, st)
    ensures Shaped(g, st')
    ensures st'.visited == st.visited + {s}
    ensures st'.depth[s] == d && st'.low[s] == d
    ensures forall x :: x in st.visited ==> st'.depth[x] == st.depth[x] && st'.low[x] == st.low[x]
    ensures st'.result == st.result && st'.hFound == st.hFound
  {
    st.(visited := st.visited + {s}, depth := st.depth[s := d], low := st.low[s := d])
  }

  /** `_articulation_points(G, s, h, d)`: the search from `s` at depth `d`.
      It visits `s`, never reconsiders a node visited before, and changes
      nothing recorded for those nodes. */
  function Visit(g: Graph, h: Node, s: Node, d: int, st: SearchState): (st': SearchState)
    requires WellFormed(g)
    requires s in g && s !in st.visited
    requires Shaped(g, st)
    ensures Shaped(g, st')
    ensures st.visited <= st'.visited && s in st'.visited
    ensures st'.depth[s] == d
    ensures forall x :: x in st.visited ==>
      st'.depth[x] == st.depth[x] && st'.low[x] == st.low[x] && (x in st'.result <==> x in st.result)
    ensures st.hFound ==> st'.hFound
    ensures ClosedSince(g, h, st.visited, st'.visited)
    decreases g.Keys - st.visited, 0, 0
  {
    var st1 := Enter(g, s, d, st);
    if s == h then st1.(hFound := true)
    else
      var st2 := Children(g, h, s, d, g[s], st1);
      assert ClosedSince(g, h, st.visited, st2.visited) by {
        forall x, j | x in st2.visited && x !in st.visited && x != h && x in g && 0 <= j < |g[x]|
          ensures g[x][j] in st2.visited
        {
          if x != s {
            assert x !in st1.visited;
          }
        }
      }
      st2
  }

  /** The loop `for k in G.neighbors(s)` of `_articulation_points`, over
      the successors of `s` still to be handled. Afterwards every one of
      them is visited. */
  function Children(g: Graph, h: Node, s: Node, d: int, succs: seq<Node>, st: SearchState): (st': SearchState)
    requires WellFormed(g)
    requires s in st.visited
    requires forall j :: 0 <= j < |succs| ==> succs[j] in g
    requires Shaped(g, st)
    ensures Shaped(g, st')
    ensures st.visited <= st'.visited
    ensures forall j :: 0 <= j < |succs| ==> succs[j] in st'.visited
    ensures forall x :: x in st.visited ==> st'.depth[x] == st.depth[x]
    ensures forall x :: x in st.visited && x != s ==> st'.low[x] == st.low[x] && (x in st'.result <==> x in st.result)
    ensures st.hFound ==> st'.hFound
    ensures ClosedSince(g, h, st.visited, st'.visited)
    decreases g.Keys - st.visited, 1, |succs|
  {
    if succs == [] then st
    else
      var st1 := Child(g, h, s, d, succs[0], st);
      var st2 := Children(g, h, s, d, succs[1..], st1);
      ClosedSinceTrans(g, h, st.visited, st1.visited, st2.visited);
      assert forall j :: 1 <= j < |succs| ==> succs[j] == succs[1..][j - 1];
      st2
  }

  /** One pass of the successor loop for the successor `k`: search from `k`
      unless it was visited, then update `low[s]` and the result. */
  function Child(g: Graph, h: Node, s: Node, d: int, k: Node, st: SearchState): (st': SearchState)
    requires WellFormed(g)
    requires s in st.visited && k in g
    requires Shaped(g, st)
    ensures Shaped(g, st')
    ensures st.visited <= st'.visited && k in st'.visited
    ensures forall x :: x in st.visited ==> st'.depth[x] == st.depth[x]
    ensures k !in st.visited ==> st'.depth[k] == d + 1
    ensures forall x :: x in st.visited && x != s ==> st'.low[x] == st.low[x] && (x in st'.result <==> x in st.result)
    ensures st'.low[s] <= st.low[s] && st'.low[s] <= st'.low[k]
    ensures s in st'.result <==> s in st.result || (k != h && st'.low[k] >= st.depth[s])
    ensures st.hFound ==> st'.hFound
    ensures ClosedSince(g, h, st.visited, st'.visited)
    decreases g.Keys - st.visited, 0, 1
  {
    var st1 := if k !in st.visited then Visit(g, h, k, d + 1, st) else st;
    Lower(h, s, k, st1)
  }

  /** The two updates after `k` is visited: `low[s]` takes the smaller of
      itself and `low[k]`, and `s` joins the result when `k` is not `h` and
      `low[k] >= depth[s]`. */
  function Lower(h: Node, s: Node, k: Node, st: SearchState): (st': SearchState)
    requires s in st.visited && k in st.visited
    requires st.depth.Keys == st.visited && st.low.Keys == st.visited
    ensures st'.visited == st.visited && st'.depth == st.depth && st'.hFound == st.hFound
    ensures st'.low.Keys == st.low.Keys
    ensures forall x :: x != s && x in st.low ==> st'.low[x] == st.low[x]
    ensures forall x :: x != s ==> (x in st'.result <==> x in st.result)
    ensures st'.low[s] <= st.low[s] && st'.low[s] <= st.low[k]
    ensures st'.low[s] == st.low[s] || st'.low[s] == st.low[k]
    ensures st'.low[k] == (if k == s then st'.low[s] else st.low[k])
    ensures s in st'.result <==> s in st.result || (k != h && st'.low[k] >= st.depth[s])
  {
    var low := st.low[s := if st.low[s] <= st.low[k] then st.low[s] else st.low[k]];
    var result := if low[k] >= st.depth[s] && k != h then st.result + {s} else st.result;
    st.(low := low, result := result)
  }

  /** `Lower` keeps the search consistent. */
  lemma LowerConsistent(g: Graph, e1: Node, h: Node, s: Node, k: Node, st: SearchState)
    requires s != h && s in st.visited && k in st.visited
    requires s in g && k in g[s]
    requires Consistent(g, e1, h, st)
    ensures Consistent(g, e1, h, Lower(h, s, k, st))
  {
    var st' := Lower(h, s, k, st);
    forall v | v in st'.visited
      ensures 0 <= st'.low[v] <= st'.depth[v] && ReachIn(g, e1, v, st'.depth[v])
    {
      assert st'.depth[v] == st.depth[v];
      if v != s {
        assert st'.low[v] == st.low[v];
      }
    }
    if s in st'.result && s !in st.result {
      var j :| 0 <= j < |g[s]| && g[s][j] == k;
      assert ExitAvoidingTarget(g, h, s);
    }
  }

  /** Entering a node `s` reached by a walk of `d` edges keeps the search
      consistent once `h_found` is set for `h`. */
  lemma EnterConsistent(g: Graph, e1: Node, h: Node, s: Node, d: int, st: SearchState)
    requires s in g && s !in st.visited
    requires d >= 0 && ReachIn(g, e1, s, d)
    requires Consistent(g, e1, h, st)
    ensures Consistent(g, e1, h, Enter(g, s, d, st).(hFound := st.hFound || s == h))
  {
    var st1 := Enter(g, s, d, st);
    forall v | v in st1.visited
      ensures 0 <= st1.low[v] <= st1.depth[v] && ReachIn(g, e1, v, st1.depth[v])
    {
      if v != s {
        assert st1.depth[v] == st.depth[v] && st1.low[v] == st.low[v];
      }
    }
  }

  /** The search from a node `s` reached by a walk of `d` edges keeps the
      search consistent. */
  lemma {:induction false} VisitConsistent(g: Graph, e1: Node, h: Node, s: Node, d: int, st: SearchState)
    requires WellFormed(g)
    requires s in g && s !in st.visited
    requires d >= 0 && ReachIn(g, e1, s, d)
    requires Consistent(g, e1, h, st)
    ensures Consistent(g, e1, h, Visit(g, h, s, d, st))
    decreases g.Keys - st.visited, 0, 0
  {
    var st1 := Enter(g, s, d, st);
    EnterConsistent(g, e1, h, s, d, st);
    if s != h {
      ChildrenConsistent(g, e1, h, s, d, g[s], st1);
    }
  }

  /** The successor loop of a visited node `s` other than `h` keeps the
      search consistent. */
  lemma {:induction false} ChildrenConsistent(g: Graph, e1: Node, h: Node, s: Node, d: int, succs: seq<Node>, st: SearchState)
    requires WellFormed(g)
    requires s in g && s != h && s in st.visited
    requires forall j :: 0 <= j < |succs| ==> succs[j] in g[s]
    requires Consistent(g, e1, h, st)
    requires st.depth[s] == d
    ensures Consistent(g, e1, h, Children(g, h, s, d, succs, st))
    decreases g.Keys - st.visited, 1, |succs|
  {
    if succs != [] {
      var k := succs[0];
      ChildConsistent(g, e1, h, s, d, k, st);
      var st2 := Child(g, h, s, d, k, st);
      assert forall j :: 0 <= j < |succs[1..]| ==> succs[1..][j] in g[s] by {
        forall j | 0 <= j < |succs[1..]|
          ensures succs[1..][j] in g[s]
        {
          assert succs[1..][j] == succs[j + 1];
        }
      }
      ChildrenConsistent(g, e1, h, s, d, succs[1..], st2);
    }
  }

  /** One pass of the successor loop of a visited node `s` other than `h`
      keeps the search consistent. */
  lemma {:induction false} ChildConsistent(g: Graph, e1: Node, h: Node, s: Node, d: int, k: Node, st: SearchState)
    requires WellFormed(g)
    requires s in g && s != h && s in st.visited && k in g[s]
    requires Consistent(g, e1, h, st)
    requires st.depth[s] == d
    ensures Consistent(g, e1, h, Child(g, h, s, d, k, st))
    decreases g.Keys - st.visited, 0, 1
  {
    assert HasEdge(g, s, k) && k in g;
    var st1 := if k !in st.visited then Visit(g, h, k, d + 1, st) else st;
    if k !in st.visited {
      ReachInStep(g, e1, s, k, d);
      VisitConsistent(g, e1, h, k, d + 1, st);
    }
    LowerConsistent(g, e1, h, s, k, st1);
  }

  /** The successor loop of `e1`, at depth 0, adds `e1` to the result
      exactly when some successor it handles is not `h`: low values are
      never negative, so `low[k] >= depth[e1]` always holds. */
  lemma {:induction false} SourceJoins(g: Graph, e1: Node, h: Node, succs: seq<Node>, st: SearchState)
    requires WellFormed(g)
    requires e1 in g && e1 != h && e1 in st.visited
    requires forall j :: 0 <= j < |succs| ==> succs[j] in g[e1]
    requires Consistent(g, e1, h, st)
    requires st.depth[e1] == 0
    ensures e1 in Children(g, h, e1, 0, succs, st).result <==>
      e1 in st.result || exists j :: 0 <= j < |succs| && succs[j] != h
    decreases |succs|
  {
    if succs != [] {
      var k := succs[0];
      ChildConsistent(g, e1, h, e1, 0, k, st);
      var st1 := Child(g, h, e1, 0, k, st);
      assert e1 in st1.result <==> e1 in st.result || k != h;
      assert forall j :: 0 <= j < |succs[1..]| ==> succs[1..][j] in g[e1] by {
        forall j | 0 <= j < |succs[1..]|
          ensures succs[1..][j] in g[e1]
        {
          assert succs[1..][j] == succs[j + 1];
        }
      }
      SourceJoins(g, e1, h, succs[1..], st1);
      if exists j :: 0 <= j < |succs[1..]| && succs[1..][j] != h {
        var j :| 0 <= j < |succs[1..]| && succs[1..][j] != h;
        assert succs[j + 1] != h;
      }
      if exists j :: 0 <= j < |succs| && succs[j] != h {
        var j :| 0 <= j < |succs| && succs[j] != h;
        if j > 0 {
          assert succs[1..][j - 1] != h;
        }
      }
    }
  }

  /** `_validate_input`: `e1` is checked first, then `h`. */
  function ValidateInput(g: Graph, e1: Node, h: Node): (r: Result<()>)
    ensures r.Success? <==> e1 in g && h in g
    ensures e1 !in g ==> r == Failure(InvalidNode(e1))
    ensures e1 in g && h !in g ==> r == Failure(InvalidNode(h))
  {
    if e1 !in g then Failure(InvalidNode(e1))
    else if h !in g then Failure(InvalidNode(h))
    else Success(())
  }

  /** In a set containing `e1` in which every node other than `h` has all
      its successors, a walk from `e1` ends inside the set unless `h` is in
      the set. */
  lemma {:induction false} ClosedReaches(g: Graph, e1: Node, h: Node, vs: set<Node>, q: seq<Node>, t: Node)
    requires e1 in vs
    requires ClosedSince(g, h, {}, vs)
    requires IsWalk(g, q, e1, t)
    ensures h in vs || t in vs
    decreases |q|
  {
    if |q| > 1 {
      var u := q[|q| - 2];
      var q' := q[..|q| - 1];
      assert IsWalk(g, q', e1, u) by {
        forall i | 0 <= i < |q'| - 1
          ensures HasEdge(g, q'[i], q'[i + 1])
        {
          assert q'[i] == q[i] && q'[i + 1] == q[i + 1];
        }
      }
      ClosedReaches(g, e1, h, vs, q', u);
      if h !in vs {
        assert HasEdge(g, u, t);
        var j :| 0 <= j < |g[u]| && g[u][j] == t;
      }
    }
  }

  /** `PathAnalyser.__call__`: a missing endpoint fails before any search;
      otherwise the search from `e1`, on freshly reset fields, succeeds
      exactly when `h` is reachable, and its result holds nodes reachable
      from `e1`, never `h`. */
  function Analyse(g: Graph, e1: Node, h: Node): (r: Result<set<Node>>)
    requires WellFormed(g)
    ensures e1 !in g ==> r == Failure(InvalidNode(e1))
    ensures e1 in g && h !in g ==> r == Failure(InvalidNode(h))
    ensures e1 in g && h in g ==> (r.Success? <==> Reachable(g, e1, h))
    ensures e1 in g && h in g && r.Failure? ==> r.error == Unreachable(e1, h)
    ensures r.Success? ==> h !in r.value
    ensures r.Success? ==> forall v :: v in r.value ==> v in g && Reachable(g, e1, v)
    ensures r.Success? ==> forall v :: v in r.value ==> ExitAvoidingTarget(g, h, v)
  {
    match ValidateInput(g, e1, h)
    case Failure(err) => Failure(err)
    case Success(_) =>
      var st := Visit(g, h, e1, 0, Fresh());
      assert Consistent(g, e1, h, st) by {
        assert IsWalk(g, [e1], e1, e1);
        VisitConsistent(g, e1, h, e1, 0, Fresh());
      }
      assert Reachable(g, e1, h) ==> st.hFound by {
        if Reachable(g, e1, h) {
          var q :| IsWalk(g, q, e1, h);
          ClosedReaches(g, e1, h, st.visited, q, h);
        }
      }
      assert forall v :: v in st.visited ==> Reachable(g, e1, v) by {
        forall v | v in st.visited
          ensures Reachable(g, e1, v)
        {
          assert ReachIn(g, e1, v, st.depth[v]);
        }
      }
      if !st.hFound then Failure(Unreachable(e1, h)) else Success(st.result)
  }

  /** `e1` is in the result exactly when it is not `h` and has a successor
      other than `h`. In particular a source whose only successor is `h` is
      left out, although every path passes through it. */
  lemma SourceInResult(g: Graph, e1: Node, h: Node)
    requires WellFormed(g)
    requires e1 in g && h in g && Reachable(g, e1, h)
    ensures Analyse(g, e1, h).Success?
    ensures e1 in Analyse(g, e1, h).value <==> e1 != h && ExitAvoidingTarget(g, h, e1)
  {
    if e1 != h {
      var st1 := Enter(g, e1, 0, Fresh());
      assert IsWalk(g, [e1], e1, e1);
      EnterConsistent(g, e1, h, e1, 0, Fresh());
      SourceJoins(g, e1, h, g[e1], st1);
    }
  }

  /** The evident intent of `PathAnalyser` (the must-pass nodes the tests
      expect): the same validation and errors, with exactly the must-pass
      nodes as result, here obtained from the naive strategy. */
  function AnalyseMustPass(g: Graph, e1: Node, h: Node): (r: Result<set<Node>>)
    requires WellFormed(g)
    ensures e1 !in g ==> r == Failure(InvalidNode(e1))
    ensures e1 in g && h !in g ==> r == Failure(InvalidNode(h))
    ensures e1 in g && h in g ==> (r.Success? <==> Reachable(g, e1, h))
    ensures e1 in g && h in g && r.Failure? ==> r.error == Unreachable(e1, h)
    ensures r.Success? ==> forall v :: v in r.value <==> MustPass(g, e1, h, v)
  {
    match ValidateInput(g, e1, h)
    case Failure(err) => Failure(err)
    case Success(_) => Naive.Analyse(g, e1, h)
  }
}

=== FILE: articulation.dfy ===
/**
  The articulation-sequence-components strategy
  (`ArticulationSequenceComponentsStrategy.analyse_path`): take a shortest
  path `P` from `e1` to `h`, add its reversed edges to a copy of the graph,
  and flood-fill in rounds; the seed of every round after the first is a
  must-pass candidate.

  The colour map `comp` is modelled as the set of coloured nodes: colours
  are only ever compared with 0 and every colour assigned is at least 1.
  The flag map `out` is modelled as the set `inFlag` of nodes whose flag is
  0 ("in"); every other node has flag 1 ("out").
 */
module Articulation {
  import opened Graphs
  import opened Paths
  import ShortestPath

  /** `P.Nodes[1:-1]`. */
  function Interior(nodes: seq<Node>): seq<Node> {
    if |nodes| >= 2 then nodes[1..|nodes| - 1] else []
  }

  /** The initial flags: a node of the working graph starts "in" exactly
      when it is an inner node of the path; `e1`, `h` and every node off
      the path start "out". */
  function InitialInFlags(g2: Graph, nodes: seq<Node>): (inFlag: set<Node>)
    requires |nodes| >= 1 && Distinct(nodes)
    ensures nodes[0] !in inFlag && nodes[|nodes| - 1] !in inFlag
    ensures forall j :: 0 < j < |nodes| - 1 && nodes[j] in g2 ==> nodes[j] in inFlag
    ensures forall u :: u in inFlag ==> u in g2 && u in nodes
  {
    var inner := Interior(nodes);
    assert forall j :: 0 < j < |nodes| - 1 ==> nodes[j] == inner[j - 1];
    assert nodes[0] !in inner by {
      forall k | 0 <= k < |inner|
        ensures inner[k] != nodes[0]
      {
        assert inner[k] == nodes[k + 1];
      }
    }
    assert nodes[|nodes| - 1] !in inner by {
      forall k | 0 <= k < |inner|
        ensures inner[k] != nodes[|nodes| - 1]
      {
        assert inner[k] == nodes[k + 1];
      }
    }
    set u | u in g2.Keys && u in inner
  }

  /** The scan `for i, u in enumerate(P.Nodes): if comp[u] == 0: break`:
      the index at which it breaks, the first uncoloured node of the path.
      When every node is coloured this function returns the length of the
      path (the scan itself would stop at the last index, but `h` is never
      coloured, so that case does not arise). */
  function FirstUncoloured(nodes: seq<Node>, comp: set<Node>): (k: nat)
    ensures k <= |nodes|
    ensures forall j :: 0 <= j < k ==> nodes[j] in comp
    ensures k < |nodes| ==> nodes[k] !in comp
  {
    if nodes == [] || nodes[0] !in comp then 0
    else 1 + FirstUncoloured(nodes[1..], comp)
  }

  /** A coloured prefix of the path is never longer than the prefix up to
      the first uncoloured node. */
  lemma {:induction false} FirstUncolouredBound(nodes: seq<Node>, comp: set<Node>, n: nat)
    requires n <= |nodes|
    requires forall j :: 0 <= j < n ==> nodes[j] in comp
    ensures n <= FirstUncoloured(nodes, comp)
    decreases n
  {
    if n > 0 {
      FirstUncolouredBound(nodes[1..], comp, n - 1);
    }
  }

  /** The flood fill may move along the edge `u -> v`: `u` is flagged "out",
      or the edge is a reversed path edge. */
  predicate Permitted(pr: Path, inFlag: set<Node>, u: Node, v: Node) {
    u !in inFlag || (u, v) in pr.edges
  }

  /** No move the fill may make from `u` remains: every permitted
      successor is coloured, and no reversed path edge from `u` leads to a
      node still flagged "in". */
  ghost predicate Settled(g2: Graph, pr: Path, comp: set<Node>, inFlag: set<Node>, u: Node)
    requires u in g2
  {
    forall j :: 0 <= j < |g2[u]| && Permitted(pr, inFlag, u, g2[u][j]) ==>
      g2[u][j] in comp && !((u, g2[u][j]) in pr.edges && g2[u][j] in inFlag)
  }

  /** A settled node stays settled while colours are only added, flags
      only move from "in" to "out", and its own flag does not change. */
  lemma SettledMonotone(g2: Graph, pr: Path, comp: set<Node>, inFlag: set<Node>,
                        comp': set<Node>, inFlag': set<Node>, u: Node)
    requires u in g2
    requires Settled(g2, pr, comp, inFlag, u)
    requires comp <= comp' && inFlag' <= inFlag
    requires (u in inFlag') == (u in inFlag)
    ensures Settled(g2, pr, comp', inFlag', u)
  {
    forall j | 0 <= j < |g2[u]| && Permitted(pr, inFlag', u, g2[u][j])
      ensures g2[u][j] in comp' && !((u, g2[u][j]) in pr.edges && g2[u][j] in inFlag')
    {
      assert Permitted(pr, inFlag, u, g2[u][j]);
    }
  }

  /** A settled node flagged "out" has every successor coloured. */
  lemma SettledSuccessor(g2: Graph, pr: Path, comp: set<Node>, inFlag: set<Node>, u: Node, v: Node)
    requires u in g2 && u !in inFlag
    requires Settled(g2, pr, comp, inFlag, u)
    requires v in g2[u]
    ensures v in comp
  {
    var j :| 0 <= j < |g2[u]| && g2[u][j] == v;
    assert Permitted(pr, inFlag, u, v);
  }

  /** `w` is a walk of the working graph from `s` to `t` whose every step
      the fill may take under the flags `inFlag`. */
  ghost predicate FillWalk(g2: Graph, pr: Path, inFlag: set<Node>, w: seq<Node>, s: Node, t: Node) {
    && |w| >= 1 && w[0] == s && w[|w| - 1] == t
    && forall i :: 0 <= i < |w| - 1 ==> HasEdge(g2, w[i], w[i + 1]) && Permitted(pr, inFlag, w[i], w[i + 1])
  }

  /** The fill can get from `s` to `t` under the flags `inFlag`. */
  ghost predicate FillReach(g2: Graph, pr: Path, inFlag: set<Node>, s: Node, t: Node) {
    exists w :: FillWalk(g2, pr, inFlag, w, s, t)
  }

  /** Clearing "in" flags only permits more moves. */
  lemma FillReachMonotone(g2: Graph, pr: Path, inFlag: set<Node>, inFlag': set<Node>, s: Node, t: Node)
    requires inFlag' <= inFlag
    requires FillReach(g2, pr, inFlag, s, t)
    ensures FillReach(g2, pr, inFlag', s, t)
  {
    var w :| FillWalk(g2, pr, inFlag, w, s, t);
    assert FillWalk(g2, pr, inFlag', w, s, t);
  }

  /** A permitted move extends what the fill can reach. */
  lemma FillReachStep(g2: Graph, pr: Path, inFlag: set<Node>, s: Node, u: Node, v: Node)
    requires FillReach(g2, pr, inFlag, s, u)
    requires HasEdge(g2, u, v) && Permitted(pr, inFlag, u, v)
    ensures FillReach(g2, pr, inFlag, s, v)
  {
    var w :| FillWalk(g2, pr, inFlag, w, s, u);
    var w' := w + [v];
    forall i | 0 <= i < |w'| - 1
      ensures HasEdge(g2, w'[i], w'[i + 1]) && Permitted(pr, inFlag, w'[i], w'[i + 1])
    {
      if i < |w| - 1 {
        assert w'[i] == w[i] && w'[i + 1] == w[i + 1];
      }
    }
    assert FillWalk(g2, pr, inFlag, w', s, v);
  }

  /** One round of the flood fill, `while not Q.empty(): ...`, from a
      coloured seed flagged "out". Colours are only added and flags only
      move from "in" to "out"; when the queue runs dry, the seed and every
      node the round coloured or re-flagged is settled, and is one the fill
      can reach from the seed: nothing else is touched. */
  method FloodRound(g2: Graph, p: Path, pr: Path, seed: Node, comp0: set<Node>, flags0: set<Node>)
    returns (comp: set<Node>, inFlag: set<Node>)
    requires WellFormed(g2)
    requires seed in g2 && seed in comp0 && seed !in flags0
    requires comp0 <= g2.Keys
    requires forall u, v :: (u, v) in pr.edges <==> (v, u) in p.edges
    ensures comp0 <= comp <= g2.Keys
    ensures inFlag <= flags0
    ensures Settled(g2, pr, comp, inFlag, seed)
    ensures forall u :: u in comp && u !in comp0 ==> u in g2 && Settled(g2, pr, comp, inFlag, u)
    ensures forall u :: u in flags0 && u !in inFlag ==> u in g2 && Settled(g2, pr, comp, inFlag, u)
    ensures forall u :: (u in comp && u !in comp0) || (u in flags0 && u !in inFlag) ==>
              FillReach(g2, pr, inFlag, seed, u)
  {
    comp, inFlag := comp0, flags0;
    var queue := [seed];
    ghost var enqueued := {seed};
    assert FillWalk(g2, pr, inFlag, [seed], seed, seed);
    while queue != []
      invariant comp0 <= comp <= g2.Keys
      invariant inFlag <= flags0
      invariant seed in enqueued && enqueued <= g2.Keys
      invariant forall u :: u in comp && u !in comp0 ==> u in enqueued
      invariant forall u :: u in flags0 && u !in inFlag ==> u in enqueued
      invariant forall k :: 0 <= k < |queue| ==> queue[k] in enqueued
      invariant forall u :: u in enqueued && u !in queue ==> Settled(g2, pr, comp, inFlag, u)
      invariant forall u :: u in enqueued ==> FillReach(g2, pr, inFlag, seed, u)
      decreases g2.Keys - comp, inFlag, |queue|
    {
      var u := queue[0];
      queue := queue[1..];
      comp, inFlag, queue, enqueued := ScanSuccessors(g2, p, pr, seed, comp0, flags0, u, comp, inFlag, queue, enqueued);
    }
  }

  /** The loop `for v in G.neighbors(u)` of a round, for the node `u` just
      taken from the queue: every permitted move to an uncoloured node, or
      along a reversed path edge to a node flagged "in", colours and
      enqueues that node, and a move backwards along the path clears its
      flag. Afterwards `u` is settled unless it was enqueued again. */
  method ScanSuccessors(g2: Graph, p: Path, pr: Path, seed: Node, comp0: set<Node>, flags0: set<Node>,
                        u: Node, comp: set<Node>, inFlag: set<Node>, queue: seq<Node>, ghost enqueued: set<Node>)
    returns (comp': set<Node>, inFlag': set<Node>, queue': seq<Node>, ghost enqueued': set<Node>)
    requires WellFormed(g2)
    requires forall x, y :: (x, y) in pr.edges <==> (y, x) in p.edges
    requires comp0 <= comp <= g2.Keys && inFlag <= flags0
    requires seed in enqueued && u in enqueued && enqueued <= g2.Keys
    requires forall w :: w in comp && w !in comp0 ==> w in enqueued
    requires forall w :: w in flags0 && w !in inFlag ==> w in enqueued
    requires forall k :: 0 <= k < |queue| ==> queue[k] in enqueued
    requires forall w :: w in enqueued && w !in queue && w != u ==> Settled(g2, pr, comp, inFlag, w)
    requires forall w :: w in enqueued ==> FillReach(g2, pr, inFlag, seed, w)
    ensures comp <= comp' <= g2.Keys && inFlag' <= inFlag
    ensures enqueued <= enqueued' <= g2.Keys
    ensures forall w :: w in comp' && w !in comp0 ==> w in enqueued'
    ensures forall w :: w in flags0 && w !in inFlag' ==> w in enqueued'
    ensures forall k :: 0 <= k < |queue'| ==> queue'[k] in enqueued'
    ensures |queue'| >= |queue| && queue'[..|queue|] == queue
    ensures forall w :: w in inFlag && w !in inFlag' ==> w in queue'
    ensures |queue'| > |queue| ==> comp < comp' || (comp == comp' && inFlag' < inFlag)
    ensures forall w :: w in enqueued' && w !in queue' && w != u ==> Settled(g2, pr, comp', inFlag', w)
    ensures u in queue' || Settled(g2, pr, comp', inFlag', u)
    ensures forall w :: w in enqueued' ==> FillReach(g2, pr, inFlag', seed, w)
  {
    comp', inFlag', queue', enqueued' := comp, inFlag, queue, enqueued;
    var j := 0;
    while j < |g2[u]|
      invariant 0 <= j <= |g2[u]|
      invariant comp <= comp' <= g2.Keys
      invariant inFlag' <= inFlag
      invariant enqueued <= enqueued' <= g2.Keys
      invariant forall w :: w in comp' && w !in comp0 ==> w in enqueued'
      invariant forall w :: w in flags0 && w !in inFlag' ==> w in enqueued'
      invariant forall k :: 0 <= k < |queue'| ==> queue'[k] in enqueued'
      invariant |queue'| >= |queue| && queue'[..|queue|] == queue
      invariant forall w :: w in inFlag && w !in inFlag' ==> w in queue'
      invariant |queue'| > |queue| ==> comp < comp' || (comp == comp' && inFlag' < inFlag)
      invariant forall w :: w in enqueued' && w !in queue' && w != u ==> Settled(g2, pr, comp', inFlag', w)
      invariant forall w :: w in enqueued' ==> FillReach(g2, pr, inFlag', seed, w)
      invariant u in queue' || forall m :: 0 <= m < j && Permitted(pr, inFlag', u, g2[u][m]) ==>
        g2[u][m] in comp' && !((u, g2[u][m]) in pr.edges && g2[u][m] in inFlag')
    {
      var v := g2[u][j];
      ghost var comp2, flags2, queue2, enqueued2 := comp', inFlag', queue', enqueued';
      if u !in inFlag' || (u, v) in pr.edges {
        if v !in comp' || ((u, v) in pr.edges && v in inFlag') {
          FillReachStep(g2, pr, inFlag', seed, u, v);
          queue' := queue' + [v];
          comp' := comp' + {v};
          enqueued' := enqueued' + {v};
          if (v, u) in p.edges {
            inFlag' := inFlag' - {v};
          }
        }
      }
      forall w | w in enqueued' && w !in queue' && w != u
        ensures Settled(g2, pr, comp', inFlag', w)
      {
        assert w in enqueued2 && w !in queue2;
        assert (w in inFlag') == (w in flags2);
        SettledMonotone(g2, pr, comp2, flags2, comp', inFlag', w);
      }
      forall w | w in enqueued'
        ensures FillReach(g2, pr, inFlag', seed, w)
      {
        FillReachMonotone(g2, pr, flags2, inFlag', seed, w);
      }
      j := j + 1;
    }
  }

  /** Steps 1 and 2 of `analyse_path`: the path record, its reversal, the
      working copy of the graph with the reversed path edges added, and the
      initial flags. The caller's graph is a value and is left as it was;
      the working graph has the same nodes, and its edges are the original
      edges together with the reversed path edges. */
  method Prepare(g: Graph, nodes: seq<Node>) returns (p: Path, pr: Path, g2: Graph, inFlag: set<Node>)
    requires WellFormed(g)
    requires |nodes| >= 1 && nodes[0] in g
    requires IsSimplePath(g, nodes, nodes[0], nodes[|nodes| - 1])
    ensures p.nodes == nodes
    ensures forall u, v :: (u, v) in pr.edges <==> (v, u) in p.edges
    ensures forall u, v :: (u, v) in p.edges <==> exists j :: 0 <= j < |nodes| - 1 && nodes[j] == u && nodes[j + 1] == v
    ensures WellFormed(g2) && g2.Keys == g.Keys
    ensures forall u, v :: HasEdge(g2, u, v) <==> HasEdge(g, u, v) || (u, v) in pr.edges
    ensures forall j :: 0 <= j < |nodes| ==> nodes[j] in g2
    ensures nodes[0] !in inFlag && nodes[|nodes| - 1] !in inFlag
    ensures forall j :: 0 < j < |nodes| - 1 ==> nodes[j] in inFlag
    ensures forall u :: u in inFlag ==> u in nodes
  {
    WalkInGraph(g, nodes, nodes[0], nodes[|nodes| - 1]);
    p := PathOf(nodes);
    pr := ReversedPath(p);
    assert forall e :: e in pr.edges ==> e.0 in g && e.1 in g by {
      forall e | e in pr.edges
        ensures e.0 in g && e.1 in g
      {
        assert (e.1, e.0) in p.edges;
      }
    }
    g2 := AddEdges(g, pr.edges);
    assert g2.Keys == g.Keys && WellFormed(g2);
    assert forall j :: 0 <= j < |nodes| ==> nodes[j] in g2;
    inFlag := InitialInFlags(g2, nodes);
  }

  /** `analyse_path` once the shortest path `nodes` is known. The result
      holds `e1` and otherwise only nodes of the path before `h`. */
  method AnalyseOnPath(g: Graph, nodes: seq<Node>) returns (a: set<Node>)
    requires WellFormed(g)
    requires |nodes| >= 1 && nodes[0] in g
    requires IsSimplePath(g, nodes, nodes[0], nodes[|nodes| - 1])
    ensures nodes[0] in a
    ensures |nodes| >= 2 ==> nodes[|nodes| - 1] !in a
    ensures forall x :: x in a ==> x in nodes
  {
    var e1, h := nodes[0], nodes[|nodes| - 1];
    var p, pr, g2, inFlag := Prepare(g, nodes);
    var comp: set<Node> := {};
    a := {};
    var i := 1;
    while h !in comp
      invariant comp <= g2.Keys
      invariant i >= 1 && (i == 1 <==> comp == {})
      invariant comp != {} ==> e1 in comp
      invariant e1 !in inFlag
      invariant forall x :: x in a ==> x in nodes && x != h
      decreases |nodes| - FirstUncoloured(nodes, comp)
    {
      ghost var k0 := FirstUncoloured(nodes, comp);
      ghost var firstRound := i == 1;
      var seed;
      if i == 1 {
        seed := e1;
        comp := comp + {e1};
      } else {
        var k := FirstUncoloured(nodes, comp);
        assert 1 <= k < |nodes|;
        seed := nodes[k - 1];
        a := a + {seed};
        inFlag := inFlag - {seed};
        comp := comp + {seed};
        i := k;
      }
      var comp';
      comp', inFlag := FloodRound(g2, p, pr, seed, comp, inFlag);
      if !firstRound {
        assert HasEdge(g, nodes[k0 - 1], nodes[k0]);
        SettledSuccessor(g2, pr, comp', inFlag, seed, nodes[k0]);
        FirstUncolouredBound(nodes, comp', k0 + 1);
      } else {
        FirstUncolouredBound(nodes, comp', 1);
      }
      comp := comp';
      i := i + 1;
    }
    a := a + {e1};
  }

  /** `ArticulationSequenceComponentsStrategy.analyse_path` on a target the
      source reaches. The result holds `e1`, never holds `h` unless
      `e1 == h` (when it is `{e1}`), and every member lies on one shortest
      path from `e1` to `h`. */
  method Analyse(g: Graph, e1: Node, h: Node) returns (a: set<Node>)
    requires WellFormed(g)
    requires e1 in g
    requires Reachable(g, e1, h)
    ensures e1 in a
    ensures e1 != h ==> h !in a
    ensures e1 == h ==> a == {e1}
    ensures exists q :: && IsSimplePath(g, q, e1, h)
                        && (forall w :: IsWalk(g, w, e1, h) ==> |q| <= |w|)
                        && forall x :: x in a ==> x in q
  {
    var nodes := ShortestPath.FindShortestPath(g, e1, h);
    a := AnalyseOnPath(g, nodes);
    assert IsSimplePath(g, nodes, e1, h);
    if e1 != h {
      assert |nodes| >= 2;
    } else {
      assert nodes[0] == nodes[|nodes| - 1];
      assert |nodes| == 1;
    }
  }
}

=== FILE: graphs.dfy ===
/**
  The directed-graph abstraction the path analysis consumes (a networkx
  `DiGraph`), the walks and reachability notions used to state what the
  strategies compute, and the typed errors they raise.
 */
module Graphs {

  /** Node identifiers are the names of the graph text: strings. */
  type Node = string

  /** A directed graph: every node maps to its successors, in the order
      `neighbors` enumerates them. */
  type Graph = map<Node, seq<Node>>

  /** Every successor is itself a node of the graph. */
  ghost predicate WellFormed(g: Graph) {
    forall u, j :: u in g && 0 <= j < |g[u]| ==> g[u][j] in g
  }

  predicate HasEdge(g: Graph, u: Node, v: Node) {
    u in g && v in g[u]
  }

  predicate Distinct<T(==)>(s: seq<T>) {
    forall i, j :: 0 <= i < j < |s| ==> s[i] != s[j]
  }

  /** `q` is a walk from `s` to `t`: a non-empty node sequence whose
      consecutive nodes are joined by edges. A single node is a walk
      from itself to itself, whether or not it is in the graph. */
  ghost predicate IsWalk(g: Graph, q: seq<Node>, s: Node, t: Node) {
    && |q| >= 1
    && q[0] == s
    && q[|q| - 1] == t
    && forall i :: 0 <= i < |q| - 1 ==> HasEdge(g, q[i], q[i + 1])
  }

  /** A simple path repeats no node. */
  ghost predicate IsSimplePath(g: Graph, q: seq<Node>, s: Node, t: Node) {
    IsWalk(g, q, s, t) && Distinct(q)
  }

  ghost predicate Reachable(g: Graph, s: Node, t: Node) {
    exists q :: IsWalk(g, q, s, t)
  }

  /** `v` is a must-pass node between `s` and `t`: it is not the target and
      every walk from `s` to `t` goes through it. */
  ghost predicate MustPass(g: Graph, s: Node, t: Node, v: Node) {
    v != t && forall q :: IsWalk(g, q, s, t) ==> v in q
  }

  /** The errors the analyses raise: an endpoint that is not a node, or a
      target that cannot be reached from the source. */
  datatype Error = InvalidNode(node: Node) | Unreachable(source: Node, target: Node)

  datatype Result<T> = Success(value: T) | Failure(error: Error)

  /** Extending a walk by one edge gives a walk. */
  lemma WalkSnoc(g: Graph, q: seq<Node>, s: Node, u: Node, v: Node)
    requires IsWalk(g, q, s, u)
    requires HasEdge(g, u, v)
    ensures IsWalk(g, q + [v], s, v)
  {
    var q' := q + [v];
    forall i | 0 <= i < |q'| - 1
      ensures HasEdge(g, q'[i], q'[i + 1])
    {
      if i < |q| - 1 {
        assert q'[i] == q[i] && q'[i + 1] == q[i + 1];
      }
    }
  }

  /** A non-trivial walk from a node of a well-formed graph stays in the graph. */
  lemma WalkInGraph(g: Graph, q: seq<Node>, s: Node, t: Node)
    requires WellFormed(g)
    requires IsWalk(g, q, s, t)
    requires s in g
    ensures forall i :: 0 <= i < |q| ==> q[i] in g
  {
    forall i | 0 <= i < |q|
      ensures q[i] in g
    {
      if i > 0 {
        assert HasEdge(g, q[i - 1], q[i]);
        var j :| 0 <= j < |g[q[i - 1]]| && g[q[i - 1]][j] == q[i];
      }
    }
  }

  /** Cutting the loop between two occurrences of one node out of a walk
      leaves a walk with the same ends. */
  lemma CutLoop(g: Graph, q: seq<Node>, s: Node, t: Node, i: nat, j: nat)
    requires IsWalk(g, q, s, t)
    requires i < j < |q| && q[i] == q[j]
    ensures IsWalk(g, q[..i] + q[j..], s, t)
    ensures |q[..i] + q[j..]| < |q|
    ensures forall x :: x in q[..i] + q[j..] ==> x in q
  {
    var r := q[..i] + q[j..];
    assert |r| == i + |q| - j;
    forall k | 0 <= k < |r| - 1
      ensures HasEdge(g, r[k], r[k + 1])
    {
      if k + 1 < i {
        assert r[k] == q[k] && r[k + 1] == q[k + 1];
      } else if k + 1 == i {
        assert r[k] == q[k] && r[k + 1] == q[j] == q[k + 1];
      } else {
        assert r[k] == q[j + k - i] && r[k + 1] == q[j + k - i + 1];
      }
    }
    if i == 0 {
      assert r[0] == q[j] == q[0];
    }
  }

  /** Every walk can be shortened to a simple path with the same ends that
      uses only nodes of the walk, so a node every simple path visits is a
      node every walk visits. */
  lemma {:induction false} ShortenWalk(g: Graph, q: seq<Node>, s: Node, t: Node) returns (r: seq<Node>)
    requires IsWalk(g, q, s, t)
    ensures IsSimplePath(g, r, s, t)
    ensures |r| <= |q|
    ensures forall x :: x in r ==> x in q
    decreases |q|
  {
    if Distinct(q) {
      r := q;
    } else {
      var i, j :| 0 <= i < j < |q| && q[i] == q[j];
      CutLoop(g, q, s, t, i, j);
      r := ShortenWalk(g, q[..i] + q[j..], s, t);
    }
  }

  /** Reachability is witnessed by a simple path as well as by a walk. */
  lemma ReachableBySimplePath(g: Graph, s: Node, t: Node)
    ensures Reachable(g, s, t) <==> exists q :: IsSimplePath(g, q, s, t)
  {
    if Reachable(g, s, t) {
      var w :| IsWalk(g, w, s, t);
      var q := ShortenWalk(g, w, s, t);
    }
  }

  /** A node on every simple path from `s` to `t` is on every walk. */
  lemma MustPassFromSimplePaths(g: Graph, s: Node, t: Node, v: Node)
    requires v != t
    requires forall q :: IsSimplePath(g, q, s, t) ==> v in q
    ensures MustPass(g, s, t, v)
  {
    forall q | IsWalk(g, q, s, t)
      ensures v in q
    {
      var r := ShortenWalk(g, q, s, t);
    }
  }

  /** A walk from inside `c` that avoids `v` stays inside `c` when every
      edge leaving `c` leads to `v`. */
  lemma {:induction false} StaysInside(g: Graph, c: set<Node>, v: Node, q: seq<Node>, s: Node, t: Node)
    requires s in c
    requires forall x, j :: x in c && x in g && 0 <= j < |g[x]| && g[x][j] != v ==> g[x][j] in c
    requires IsWalk(g, q, s, t) && v !in q
    ensures t in c
    decreases |q|
  {
    if |q| > 1 {
      var u := q[|q| - 2];
      var q' := q[..|q| - 1];
      assert IsWalk(g, q', s, u) by {
        forall i | 0 <= i < |q'| - 1
          ensures HasEdge(g, q'[i], q'[i + 1])
        {
          assert q'[i] == q[i] && q'[i + 1] == q[i + 1];
        }
      }
      assert forall x :: x in q' ==> x in q;
      StaysInside(g, c, v, q', s, u);
      assert HasEdge(g, u, t);
      var j :| 0 <= j < |g[u]| && g[u][j] == t;
    }
  }

  /** A set holding `s` but not `t`, which can only be left through `v`,
      makes `v` a must-pass node between `s` and `t`. */
  lemma CutMustPass(g: Graph, c: set<Node>, s: Node, t: Node, v: Node)
    requires s in c && t !in c && v != t
    requires forall x, j :: x in c && x in g && 0 <= j < |g[x]| && g[x][j] != v ==> g[x][j] in c
    ensures MustPass(g, s, t, v)
  {
    forall q | IsWalk(g, q, s, t)
      ensures v in q
    {
      if v !in q {
        StaysInside(g, c, v, q, s, t);
      }
    }
  }

  /** No successor list names a node twice, as in a networkx graph. */
  predicate NoRepeats(g: Graph) {
    forall x :: x in g ==> Distinct(g[x])
  }

  /** `add_edge(u, v)` of networkx: missing endpoints become nodes, and an
      edge already present is left as it is, so no successor is repeated. */
  function AddEdge(g: Graph, u: Node, v: Node): (r: Graph)
    ensures r.Keys == g.Keys + {u, v}
    ensures forall x, y :: HasEdge(r, x, y) <==> HasEdge(g, x, y) || (x == u && y == v)
    ensures forall x :: x in g ==> g[x] <= r[x]
    ensures forall x :: x in r && x != u ==> r[x] == (if x in g then g[x] else [])
    ensures r[u] == if HasEdge(g, u, v) then g[u] else (if u in g then g[u] else []) + [v]
    ensures NoRepeats(g) ==> NoRepeats(r)
    ensures WellFormed(g) ==> WellFormed(r)
  {
    var g1 := if u in g then g else g[u := []];
    var g2 := if v in g1 then g1 else g1[v := []];
    if v in g2[u] then g2 else g2[u := g2[u] + [v]]
  }

  /** No edge of `es` leaves `x`. */
  predicate Untouched(es: seq<(Node, Node)>, x: Node) {
    forall j :: 0 <= j < |es| ==> es[j].0 != x
  }

  /** `add_edges_from(es)`: the edges of `es`, in order. */
  function AddEdges(g: Graph, es: seq<(Node, Node)>): (r: Graph)
    ensures g.Keys <= r.Keys
    ensures (forall e :: e in es ==> e.0 in g && e.1 in g) ==> r.Keys == g.Keys
    ensures forall x, y :: HasEdge(r, x, y) <==> HasEdge(g, x, y) || (x, y) in es
    ensures forall x :: x in g ==> g[x] <= r[x]
    ensures forall x :: x in g && Untouched(es, x) ==> r[x] == g[x]
    ensures NoRepeats(g) ==> NoRepeats(r)
    ensures WellFormed(g) ==> WellFormed(r)
    decreases |es|
  {
    if es == [] then g
    else
      var g1 := AddEdge(g, es[0].0, es[0].1);
      var r := AddEdges(g1, es[1..]);
      assert forall e :: e in es <==> e == es[0] || e in es[1..];
      assert forall x :: Untouched(es, x) ==> x != es[0].0 && Untouched(es[1..], x) by {
        forall x | Untouched(es, x)
          ensures x != es[0].0 && Untouched(es[1..], x)
        {
          assert es[0].0 != x;
          forall j | 0 <= j < |es[1..]|
            ensures es[1..][j].0 != x
          {
            assert es[1..][j] == es[j + 1];
          }
        }
      }
      r
  }
}

=== FILE: naive.dfy ===
/**
  The naive strategy (`NaivePathAnalysisStrategy`): enumerate every simple
  path from `e1` to `h` by depth-first search, intersect their node sets and
  drop `h`.
 */
module Naive {
  import opened Graphs

  function Elems(s: seq<Node>): set<Node> {
    set x | x in s
  }

  /** The inner `dfs(G, start, path, all_paths)`: the paths it appends to
      `all_paths`, in order. `path` is the current path before `start` is
      appended; a node already on it is never entered again. */
  function Dfs(g: Graph, h: Node, path: seq<Node>, start: Node): (r: seq<seq<Node>>)
    requires WellFormed(g)
    requires start == h || start in g
    requires start !in path
    ensures forall q :: q in r ==> |q| > |path| && q[..|path| + 1] == path + [start] && q[|q| - 1] == h
    ensures start == h ==> r == [path + [start]]
    decreases g.Keys - Elems(path), 0
  {
    var path' := path + [start];
    if start == h then [path']
    else
      assert Elems(path') == Elems(path) + {start};
      Explore(g, h, path', g[start])
  }

  /** The loop `for node in G.neighbors(start)` of `dfs`, over the
      successors still to be tried. */
  function Explore(g: Graph, h: Node, path: seq<Node>, succs: seq<Node>): (r: seq<seq<Node>>)
    requires WellFormed(g)
    requires forall j :: 0 <= j < |succs| ==> succs[j] in g
    ensures forall q :: q in r ==>
              (|q| > |path| && q[..|path|] == path && q[|q| - 1] == h && q[|path|] in succs && q[|path|] !in path)
    decreases g.Keys - Elems(path), 1, |succs|
  {
    if succs == [] then []
    else
      var here := if succs[0] in path then [] else Dfs(g, h, path, succs[0]);
      var rest := Explore(g, h, path, succs[1..]);
      assert forall q :: q in here ==> q[..|path|] == path && q[|path|] == succs[0] by {
        forall q | q in here
          ensures q[..|path|] == path && q[|path|] == succs[0]
        {
          assert q[..|path|] == q[..|path| + 1][..|path|];
          assert q[|path|] == q[..|path| + 1][|path|];
        }
      }
      here + rest
  }

  /** `q` is a path the search from `start`, on top of `path`, should find:
      `path` followed by a walk from `start` to `h`, with no node repeated. */
  ghost predicate Completes(g: Graph, h: Node, path: seq<Node>, start: Node, q: seq<Node>) {
    && |q| > |path|
    && q[..|path|] == path
    && Distinct(q)
    && IsWalk(g, q[|path|..], start, h)
  }

  /** Every path `dfs` collects is a simple path to `h` that extends the
      current path. */
  lemma {:induction false} DfsSound(g: Graph, h: Node, path: seq<Node>, start: Node, q: seq<Node>)
    requires WellFormed(g)
    requires start == h || start in g
    requires start !in path && Distinct(path)
    requires q in Dfs(g, h, path, start)
    ensures Completes(g, h, path, start, q)
    decreases g.Keys - Elems(path), 0
  {
    var path' := path + [start];
    assert Distinct(path');
    if start == h {
      assert q == path';
    } else {
      assert Elems(path') == Elems(path) + {start};
      var m := ExploreSound(g, h, path', g[start], q);
      PrependStart(g, h, path, start, g[start][m], q);
    }
  }

  /** A simple path found from a successor of `start`, on top of
      `path + [start]`, is one found from `start` on top of `path`. */
  lemma PrependStart(g: Graph, h: Node, path: seq<Node>, start: Node, succ: Node, q: seq<Node>)
    requires start in g && succ in g[start]
    requires Completes(g, h, path + [start], succ, q)
    ensures Completes(g, h, path, start, q)
  {
    var path' := path + [start];
    var r := q[|path'|..];
    assert q[|path|] == start by {
      assert q[..|path'|][|path|] == start;
    }
    assert q[|path|..] == [start] + r by {
      var u := q[|path|..];
      assert |u| == 1 + |r|;
      forall i | 0 <= i < |u|
        ensures u[i] == ([start] + r)[i]
      {
        if i > 0 {
          assert u[i] == q[|path| + i] == r[i - 1];
        }
      }
    }
    assert IsWalk(g, [start] + r, start, h) by {
      var w := [start] + r;
      forall i | 0 <= i < |w| - 1
        ensures HasEdge(g, w[i], w[i + 1])
      {
        if i > 0 {
          assert w[i] == r[i - 1] && w[i + 1] == r[i];
        }
      }
    }
    assert q[..|path|] == path by {
      assert q[..|path|] == q[..|path'|][..|path|];
    }
  }

  /** A path the successor loop collects comes from the search of one
      successor `succs[m]` not on the current path. */
  lemma {:induction false} ExploreSound(g: Graph, h: Node, path: seq<Node>, succs: seq<Node>, q: seq<Node>)
    returns (m: nat)
    requires WellFormed(g)
    requires forall j :: 0 <= j < |succs| ==> succs[j] in g
    requires Distinct(path)
    requires q in Explore(g, h, path, succs)
    ensures m < |succs| && succs[m] !in path
    ensures Completes(g, h, path, succs[m], q)
    decreases g.Keys - Elems(path), 1, |succs|
  {
    var first := if succs[0] in path then [] else Dfs(g, h, path, succs[0]);
    assert Explore(g, h, path, succs) == first + Explore(g, h, path, succs[1..]);
    if q in first {
      DfsSound(g, h, path, succs[0], q);
      m := 0;
    } else {
      var m' := ExploreSound(g, h, path, succs[1..], q);
      m := m' + 1;
    }
  }

  /** Every simple path to `h` that extends the current path is collected. */
  lemma {:induction false} DfsComplete(g: Graph, h: Node, path: seq<Node>, start: Node, q: seq<Node>)
    requires WellFormed(g)
    requires start == h || start in g
    requires start !in path
    requires Completes(g, h, path, start, q)
    ensures q in Dfs(g, h, path, start)
    decreases g.Keys - Elems(path), 0
  {
    var path' := path + [start];
    var r := q[|path|..];
    if start == h {
      assert q[|path|] == h && q[|q| - 1] == h;
      assert |r| == 1;
      assert r == [start];
      assert q == q[..|path|] + r;
      assert q == path + [start];
    } else {
      assert Elems(path') == Elems(path) + {start};
      assert |r| > 1;
      assert HasEdge(g, r[0], r[1]);
      var m :| 0 <= m < |g[start]| && g[start][m] == r[1];
      assert q[..|path'|] == path' by {
        assert q[..|path'|] == q[..|path|] + [q[|path|]];
      }
      assert q[|path'|..] == r[1..];
      assert IsWalk(g, r[1..], r[1], h) by {
        forall i | 0 <= i < |r[1..]| - 1
          ensures HasEdge(g, r[1..][i], r[1..][i + 1])
        {
          assert r[1..][i] == r[i + 1] && r[1..][i + 1] == r[i + 2];
        }
      }
      assert r[1] !in path' by {
        forall k | 0 <= k < |path'|
          ensures path'[k] != r[1]
        {
          assert path'[k] == q[k] && r[1] == q[|path'|];
        }
      }
      ExploreComplete(g, h, path', g[start], q, m);
    }
  }

  /** The successor loop collects every path that the search of some
      successor `succs[m]` off the current path collects. */
  lemma {:induction false} ExploreComplete(g: Graph, h: Node, path: seq<Node>, succs: seq<Node>, q: seq<Node>, m: nat)
    requires WellFormed(g)
    requires forall j :: 0 <= j < |succs| ==> succs[j] in g
    requires m < |succs| && succs[m] !in path
    requires Completes(g, h, path, succs[m], q)
    ensures q in Explore(g, h, path, succs)
    decreases g.Keys - Elems(path), 1, |succs|
  {
    var first := if succs[0] in path then [] else Dfs(g, h, path, succs[0]);
    assert Explore(g, h, path, succs) == first + Explore(g, h, path, succs[1..]);
    if m == 0 {
      DfsComplete(g, h, path, succs[0], q);
    } else {
      ExploreComplete(g, h, path, succs[1..], q, m - 1);
    }
  }

  /** `all_paths` after `dfs(G, e1, [], all_paths)` holds exactly the simple
      paths from `e1` to `h`. */
  lemma AllPathsExact(g: Graph, e1: Node, h: Node)
    requires WellFormed(g)
    requires e1 == h || e1 in g
    ensures forall q :: q in Dfs(g, h, [], e1) <==> IsSimplePath(g, q, e1, h)
  {
    forall q
      ensures q in Dfs(g, h, [], e1) <==> IsSimplePath(g, q, e1, h)
    {
      assert q[..0] == [] && q[0..] == q;
      if q in Dfs(g, h, [], e1) {
        DfsSound(g, h, [], e1, q);
      }
      if IsSimplePath(g, q, e1, h) {
        DfsComplete(g, h, [], e1, q);
      }
    }
  }

  /** `set(paths[0])` narrowed by `intersection_update` with each later
      path: the nodes common to every path. */
  function Intersection(paths: seq<seq<Node>>): (common: set<Node>)
    requires |paths| > 0
    ensures forall v :: v in common <==> forall k :: 0 <= k < |paths| ==> v in paths[k]
  {
    if |paths| == 1 then Elems(paths[0])
    else Intersection(paths[..|paths| - 1]) * Elems(paths[|paths| - 1])
  }

  /** `NaivePathAnalysisStrategy.analyse_path`. A source that is not a node
      (and is not the target) fails as `neighbors` does; no path fails as
      unreachable; otherwise the result is exactly the must-pass nodes. */
  function Analyse(g: Graph, e1: Node, h: Node): (r: Result<set<Node>>)
    requires WellFormed(g)
    ensures e1 != h && e1 !in g ==> r == Failure(InvalidNode(e1))
    ensures (e1 == h || e1 in g) ==> (r.Failure? <==> !Reachable(g, e1, h))
    ensures r.Failure? && (e1 == h || e1 in g) ==> r.error == Unreachable(e1, h)
    ensures r.Success? ==> forall v :: v in r.value <==> MustPass(g, e1, h, v)
    ensures r.Success? ==> h !in r.value && (e1 != h ==> e1 in r.value)
  {
    if e1 != h && e1 !in g then Failure(InvalidNode(e1))
    else
      var allPaths := Dfs(g, h, [], e1);
      AllPathsExact(g, e1, h);
      ReachableBySimplePath(g, e1, h);
      if allPaths == [] then
        Failure(Unreachable(e1, h))
      else
        var mustGoThrough := Intersection(allPaths) - {h};
        assert Reachable(g, e1, h) by {
          assert allPaths[0] in allPaths;
          assert IsWalk(g, allPaths[0], e1, h);
        }
        assert forall v :: v in mustGoThrough <==> MustPass(g, e1, h, v) by {
          forall v
            ensures v in mustGoThrough <==> MustPass(g, e1, h, v)
          {
            if v in mustGoThrough {
              forall q | IsSimplePath(g, q, e1, h)
                ensures v in q
              {
                var k :| 0 <= k < |allPaths| && allPaths[k] == q;
              }
              MustPassFromSimplePaths(g, e1, h, v);
            }
            if MustPass(g, e1, h, v) {
              forall k | 0 <= k < |allPaths|
                ensures v in allPaths[k]
              {
                assert allPaths[k] in allPaths;
                assert IsWalk(g, allPaths[k], e1, h);
              }
            }
          }
        }
        assert e1 != h ==> e1 in mustGoThrough by {
          if e1 != h {
            forall q | IsWalk(g, q, e1, h)
              ensures e1 in q
            {
              assert q[0] == e1;
            }
            assert MustPass(g, e1, h, e1);
          }
        }
        Success(mustGoThrough)
  }
}

=== FILE: paths.dfy ===
/**
  The `Path` record of the articulation strategy: a node sequence with its
  derived list of consecutive edges, and its reversal.
 */
module Paths {
  import opened Graphs

  datatype Path = Path(nodes: seq<Node>, edges: seq<(Node, Node)>)

  /** `s[::-1]`. */
  function Reverse<T>(s: seq<T>): (r: seq<T>)
    ensures |r| == |s|
    ensures forall i :: 0 <= i < |s| ==> r[i] == s[|s| - 1 - i]
  {
    if s == [] then [] else Reverse(s[1..]) + [s[0]]
  }

  /** `[(u, v) for u, v in zip(nodes, nodes[1:])]`. */
  function Consecutive(nodes: seq<Node>): (es: seq<(Node, Node)>)
    ensures |es| == if nodes == [] then 0 else |nodes| - 1
    ensures forall j :: 0 <= j < |es| ==> es[j] == (nodes[j], nodes[j + 1])
  {
    if |nodes| <= 1 then [] else [(nodes[0], nodes[1])] + Consecutive(nodes[1..])
  }

  /** `Path(P, zip(P, P[1:]))`: an edge belongs to the path exactly when
      its two ends are consecutive nodes of it. */
  function PathOf(nodes: seq<Node>): (p: Path)
    ensures p.nodes == nodes
    ensures forall u, v :: (u, v) in p.edges <==>
      exists j :: 0 <= j < |nodes| - 1 && nodes[j] == u && nodes[j + 1] == v
  {
    var es := Consecutive(nodes);
    assert forall u, v :: (u, v) in es ==>
      exists j :: 0 <= j < |nodes| - 1 && nodes[j] == u && nodes[j + 1] == v by {
      forall u, v | (u, v) in es
        ensures exists j :: 0 <= j < |nodes| - 1 && nodes[j] == u && nodes[j + 1] == v
      {
        var k :| 0 <= k < |es| && es[k] == (u, v);
        assert es[k] == (nodes[k], nodes[k + 1]);
        assert nodes[k] == u && nodes[k + 1] == v;
      }
    }
    assert forall j :: 0 <= j < |nodes| - 1 ==> (nodes[j], nodes[j + 1]) in es by {
      forall j | 0 <= j < |nodes| - 1
        ensures (nodes[j], nodes[j + 1]) in es
      {
        assert es[j] == (nodes[j], nodes[j + 1]);
      }
    }
    Path(nodes, es)
  }

  /** `Path(P.Nodes[::-1], [(v, u) for (u, v) in P.Edges[::-1]])`: the
      reversed path holds an edge exactly when the path holds its reverse. */
  function ReversedPath(p: Path): (r: Path)
    ensures r.nodes == Reverse(p.nodes)
    ensures forall u, v :: (u, v) in r.edges <==> (v, u) in p.edges
  {
    var re := Reverse(p.edges);
    var flipped := seq(|re|, k requires 0 <= k < |re| => (re[k].1, re[k].0));
    assert forall u, v :: (u, v) in flipped ==> (v, u) in p.edges by {
      forall u, v | (u, v) in flipped
        ensures (v, u) in p.edges
      {
        var k :| 0 <= k < |flipped| && flipped[k] == (u, v);
        assert p.edges[|p.edges| - 1 - k] == (v, u);
      }
    }
    assert forall u, v :: (v, u) in p.edges ==> (u, v) in flipped by {
      forall u, v | (v, u) in p.edges
        ensures (u, v) in flipped
      {
        var k :| 0 <= k < |p.edges| && p.edges[k] == (v, u);
        assert flipped[|p.edges| - 1 - k] == (u, v);
      }
    }
    Path(Reverse(p.nodes), flipped)
  }
}

=== FILE: scenarios.dfy ===
/**
  The example graphs of tests/test_algo.py and three small graphs on which
  `PathAnalyser` as written departs from the must-pass nodes.

  A search trace is stated one call at a time: each lemma fixes the state a
  single `Visit`, `Children` or `Child` call returns, using the lemmas for
  the calls it makes.
 */
module Scenarios {
  import opened Graphs
  import opened Analyser

  /** The result of the must-pass analysis is `expected` when two walks from
      `e1` to `h` share no node outside `expected` other than `h`, and every
      node of `expected` is must-pass. */
  lemma MustPassResult(g: Graph, e1: Node, h: Node, expected: set<Node>, w1: seq<Node>, w2: seq<Node>)
    requires WellFormed(g) && e1 in g && h in g
    requires IsWalk(g, w1, e1, h) && IsWalk(g, w2, e1, h)
    requires forall v :: v in w1 && v in w2 && v != h ==> v in expected
    requires forall v :: v in expected ==> MustPass(g, e1, h, v)
    ensures AnalyseMustPass(g, e1, h) == Success(expected)
  {
    assert Reachable(g, e1, h);
    var r := AnalyseMustPass(g, e1, h);
    forall v
      ensures v in r.value <==> v in expected
    {
      if v in r.value {
        assert MustPass(g, e1, h, v);
        assert v in w1 && v in w2;
      }
    }
    assert r.value == expected;
  }

  /** The source is must-pass whenever it is not the target. */
  lemma SourceMustPass(g: Graph, e1: Node, h: Node)
    requires e1 != h
    ensures MustPass(g, e1, h, e1)
  {
    forall q | IsWalk(g, q, e1, h)
      ensures e1 in q
    {
      assert q[0] == e1;
    }
  }

  // Scenarios A and B: 1->2, 2->3, 2->5, 5->2, 3->5 (and 5->6), e1 = 1, h = 5.

  function GraphA(): Graph {
    map["1" := ["2"], "2" := ["3", "5"], "3" := ["5"], "5" := ["2"]]
  }

  function GraphB(): Graph {
    map["1" := ["2"], "2" := ["3", "5"], "3" := ["5"], "5" := ["2", "6"], "6" := []]
  }

  /** What the search from 1 towards 5 reads of the graph: the successors
      of 1, 2 and 3 (5 is the target, so its successors are never read). */
  ghost predicate LikeA(g: Graph) {
    && WellFormed(g)
    && "1" in g && "2" in g && "3" in g && "5" in g
    && g["1"] == ["2"] && g["2"] == ["3", "5"] && g["3"] == ["5"]
  }

  // The states of the search, in which every low value equals the depth.

  function Levels(): map<Node, int> {
    map["1" := 0, "2" := 1, "3" := 2, "5" := 3]
  }

  function EnteredA1(): SearchState {
    SearchState({"1"}, map["1" := 0], map["1" := 0], {}, false)
  }

  function EnteredA2(): SearchState {
    var levels := map["1" := 0, "2" := 1];
    SearchState({"1", "2"}, levels, levels, {}, false)
  }

  function EnteredA3(): SearchState {
    var levels := map["1" := 0, "2" := 1, "3" := 2];
    SearchState({"1", "2", "3"}, levels, levels, {}, false)
  }

  function ReachedA(result: set<Node>): SearchState {
    SearchState({"1", "2", "3", "5"}, Levels(), Levels(), result, true)
  }

  lemma TraceA5(g: Graph)
    requires LikeA(g)
    ensures Visit(g, "5", "5", 3, EnteredA3()) == ReachedA({})
  {
  }

  lemma TraceA3Loop(g: Graph)
    requires LikeA(g)
    ensures Children(g, "5", "3", 2, ["5"], EnteredA3()) == ReachedA({})
  {
    TraceA5(g);
    assert Lower("5", "3", "5", ReachedA({})) == ReachedA({});
  }

  lemma TraceA3(g: Graph)
    requires LikeA(g)
    ensures Visit(g, "5", "3", 2, EnteredA2()) == ReachedA({})
  {
    assert Enter(g, "3", 2, EnteredA2()) == EnteredA3();
    TraceA3Loop(g);
  }

  lemma TraceA2First(g: Graph)
    requires LikeA(g)
    ensures Child(g, "5", "2", 1, "3", EnteredA2()) == ReachedA({"2"})
  {
    TraceA3(g);
    assert Lower("5", "2", "3", ReachedA({})) == ReachedA({"2"});
  }

  lemma TraceA2Second(g: Graph)
    requires LikeA(g)
    ensures Child(g, "5", "2", 1, "5", ReachedA({"2"})) == ReachedA({"2"})
  {
    assert Lower("5", "2", "5", ReachedA({"2"})) == ReachedA({"2"});
  }

  lemma TraceA2Rest(g: Graph)
    requires LikeA(g)
    ensures Children(g, "5", "2", 1, ["5"], ReachedA({"2"})) == ReachedA({"2"})
  {
    TraceA2Second(g);
  }

  lemma TraceA2Loop(g: Graph)
    requires LikeA(g)
    ensures Children(g, "5", "2", 1, ["3", "5"], EnteredA2()) == ReachedA({"2"})
  {
    TraceA2First(g);
    TraceA2Rest(g);
    assert ["3", "5"][1..] == ["5"];
  }

  lemma TraceA2(g: Graph)
    requires LikeA(g)
    ensures Visit(g, "5", "2", 1, EnteredA1()) == ReachedA({"2"})
  {
    assert Enter(g, "2", 1, EnteredA1()) == EnteredA2();
    TraceA2Loop(g);
  }

  lemma TraceA1First(g: Graph)
    requires LikeA(g)
    ensures Child(g, "5", "1", 0, "2", EnteredA1()) == ReachedA({"1", "2"})
  {
    TraceA2(g);
    assert Lower("5", "1", "2", ReachedA({"2"})) == ReachedA({"1", "2"});
  }

  lemma TraceA1Loop(g: Graph)
    requires LikeA(g)
    ensures Children(g, "5", "1", 0, ["2"], EnteredA1()) == ReachedA({"1", "2"})
  {
    TraceA1First(g);
  }

  lemma TraceA1(g: Graph)
    requires LikeA(g)
    ensures Visit(g, "5", "1", 0, Fresh()) == ReachedA({"1", "2"})
  {
    assert Enter(g, "1", 0, Fresh()) == EnteredA1();
    TraceA1Loop(g);
  }

  /** tests/test_algo.py:5-11: the result is {1, 2}. */
  lemma ScenarioA()
    ensures Analyse(GraphA(), "1", "5") == Success({"1", "2"})
  {
    TraceA1(GraphA());
  }

  /** tests/test_algo.py:13-19: the extra edge 5->6 leaves {1, 2}, since the
      search stops at 5 before its successors. */
  lemma ScenarioB()
    ensures Analyse(GraphB(), "1", "5") == Success({"1", "2"})
  {
    TraceA1(GraphB());
  }

  /** On scenario A the result is exactly the must-pass nodes. */
  lemma ScenarioAMustPass()
    ensures AnalyseMustPass(GraphA(), "1", "5") == Success({"1", "2"})
  {
    var g := GraphA();
    SourceMustPass(g, "1", "5");
    CutMustPass(g, {"1"}, "1", "5", "2");
    MustPassResult(g, "1", "5", {"1", "2"}, ["1", "2", "5"], ["1", "2", "5"]);
  }

  // Scenario C: tests/test_algo.py:22-28, e1 = 1, h = 8.

  function GraphC(): Graph {
    map["1" := ["2", "3"], "2" := ["4"], "3" := ["4"], "4" := ["9", "5", "7"],
        "9" := [], "5" := ["6"], "6" := ["7"], "7" := ["8"], "8" := []]
  }

  /** The test expects {1, 4, 7}, but 7, whose only successor is 8, is never
      added: the result as written is something else. */
  lemma ScenarioCAsWritten()
    ensures Analyse(GraphC(), "1", "8").Success?
    ensures "7" !in Analyse(GraphC(), "1", "8").value
    ensures Analyse(GraphC(), "1", "8") != Success({"1", "4", "7"})
  {
    NotReported(GraphC(), "1", "8", "7", ["1", "2", "4", "7", "8"]);
  }

  /** A node whose only successor is the target is never reported, even
      when it lies on every path. */
  lemma NotReported(g: Graph, e1: Node, h: Node, v: Node, w: seq<Node>)
    requires WellFormed(g) && e1 in g && h in g
    requires IsWalk(g, w, e1, h)
    requires v in g && g[v] == [h]
    ensures Analyse(g, e1, h).Success?
    ensures v !in Analyse(g, e1, h).value
  {
    assert Reachable(g, e1, h);
    assert !ExitAvoidingTarget(g, h, v) by {
      assert g[v][0] == h;
    }
  }

  /** The must-pass nodes of scenario C are the {1, 4, 7} the test expects. */
  lemma ScenarioCMustPass()
    ensures AnalyseMustPass(GraphC(), "1", "8") == Success({"1", "4", "7"})
  {
    var g := GraphC();
    SourceMustPass(g, "1", "8");
    CutMustPass(g, {"1", "2", "3"}, "1", "8", "4");
    CutMustPass(g, {"1", "2", "3", "4", "5", "6", "9"}, "1", "8", "7");
    MustPassResult(g, "1", "8", {"1", "4", "7"}, ["1", "2", "4", "7", "8"], ["1", "3", "4", "7", "8"]);
  }

  // A single edge 1->2, e1 = 1, h = 2.

  function SingleEdge(): Graph {
    map["1" := ["2"], "2" := []]
  }

  /** The only successor of 1 is the target, so nothing is added. */
  lemma SingleEdgeAsWritten()
    ensures Analyse(SingleEdge(), "1", "2") == Success({})
    ensures MustPass(SingleEdge(), "1", "2", "1")
  {
    var g := SingleEdge();
    assert IsWalk(g, ["1", "2"], "1", "2");
    SourceInResult(g, "1", "2");
    assert !ExitAvoidingTarget(g, "2", "1") by {
      assert g["1"] == ["2"];
    }
    SourceMustPass(g, "1", "2");
  }

  lemma SingleEdgeMustPass()
    ensures AnalyseMustPass(SingleEdge(), "1", "2") == Success({"1"})
  {
    SourceMustPass(SingleEdge(), "1", "2");
    MustPassResult(SingleEdge(), "1", "2", {"1"}, ["1", "2"], ["1", "2"]);
  }

  // A diamond feeding the target: 1->2, 1->3, 2->4, 3->4, 4->5, e1 = 1, h = 5.

  function Diamond(): Graph {
    map["1" := ["2", "3"], "2" := ["4"], "3" := ["4"], "4" := ["5"], "5" := []]
  }

  /** What the search from 1 towards 5 reads of the diamond. */
  ghost predicate LikeDiamond(g: Graph) {
    && WellFormed(g)
    && "1" in g && "2" in g && "3" in g && "4" in g && "5" in g
    && g["1"] == ["2", "3"] && g["2"] == ["4"] && g["3"] == ["4"] && g["4"] == ["5"]
  }

  function DiamondLevels(): map<Node, int> {
    map["1" := 0, "2" := 1, "4" := 2, "5" := 3]
  }

  function EnteredD1(): SearchState {
    SearchState({"1"}, map["1" := 0], map["1" := 0], {}, false)
  }

  function EnteredD2(): SearchState {
    var levels := map["1" := 0, "2" := 1];
    SearchState({"1", "2"}, levels, levels, {}, false)
  }

  function EnteredD4(): SearchState {
    var levels := map["1" := 0, "2" := 1, "4" := 2];
    SearchState({"1", "2", "4"}, levels, levels, {}, false)
  }

  function ReachedD(result: set<Node>): SearchState {
    SearchState({"1", "2", "4", "5"}, DiamondLevels(), DiamondLevels(), result, true)
  }

  function EnteredD3(result: set<Node>): SearchState {
    var levels := DiamondLevels()["3" := 1];
    SearchState({"1", "2", "4", "5", "3"}, levels, levels, result, true)
  }

  lemma TraceD5(g: Graph)
    requires LikeDiamond(g)
    ensures Visit(g, "5", "5", 3, EnteredD4()) == ReachedD({})
  {
    assert Enter(g, "5", 3, EnteredD4()) == ReachedD({}).(hFound := false);
  }

  lemma TraceD4Loop(g: Graph)
    requires LikeDiamond(g)
    ensures Children(g, "5", "4", 2, ["5"], EnteredD4()) == ReachedD({})
  {
    TraceD5(g);
    assert Lower("5", "4", "5", ReachedD({})) == ReachedD({});
  }

  lemma TraceD4(g: Graph)
    requires LikeDiamond(g)
    ensures Visit(g, "5", "4", 2, EnteredD2()) == ReachedD({})
  {
    assert Enter(g, "4", 2, EnteredD2()) == EnteredD4();
    TraceD4Loop(g);
  }

  lemma TraceD2First(g: Graph)
    requires LikeDiamond(g)
    ensures Child(g, "5", "2", 1, "4", EnteredD2()) == ReachedD({"2"})
  {
    TraceD4(g);
    assert Lower("5", "2", "4", ReachedD({})) == ReachedD({"2"});
  }

  lemma TraceD2Loop(g: Graph)
    requires LikeDiamond(g)
    ensures Children(g, "5", "2", 1, ["4"], EnteredD2()) == ReachedD({"2"})
  {
    TraceD2First(g);
  }

  lemma TraceD2(g: Graph)
    requires LikeDiamond(g)
    ensures Visit(g, "5", "2", 1, EnteredD1()) == ReachedD({"2"})
  {
    assert Enter(g, "2", 1, EnteredD1()) == EnteredD2();
    TraceD2Loop(g);
  }

  lemma TraceD1First(g: Graph)
    requires LikeDiamond(g)
    ensures Child(g, "5", "1", 0, "2", EnteredD1()) == ReachedD({"1", "2"})
  {
    TraceD2(g);
    assert Lower("5", "1", "2", ReachedD({"2"})) == ReachedD({"1", "2"});
  }

  lemma TraceD3First(g: Graph)
    requires LikeDiamond(g)
    ensures Child(g, "5", "3", 1, "4", EnteredD3({"1", "2"})) == EnteredD3({"1", "2", "3"})
  {
    assert Lower("5", "3", "4", EnteredD3({"1", "2"})) == EnteredD3({"1", "2", "3"});
  }

  lemma TraceD3Loop(g: Graph)
    requires LikeDiamond(g)
    ensures Children(g, "5", "3", 1, ["4"], EnteredD3({"1", "2"})) == EnteredD3({"1", "2", "3"})
  {
    TraceD3First(g);
  }

  lemma TraceD3(g: Graph)
    requires LikeDiamond(g)
    ensures Visit(g, "5", "3", 1, ReachedD({"1", "2"})) == EnteredD3({"1", "2", "3"})
  {
    assert Enter(g, "3", 1, ReachedD({"1", "2"})) == EnteredD3({"1", "2"});
    TraceD3Loop(g);
  }

  lemma TraceD1Second(g: Graph)
    requires LikeDiamond(g)
    ensures Child(g, "5", "1", 0, "3", ReachedD({"1", "2"})) == EnteredD3({"1", "2", "3"})
  {
    TraceD3(g);
    assert Lower("5", "1", "3", EnteredD3({"1", "2", "3"})) == EnteredD3({"1", "2", "3"});
  }

  lemma TraceD1Rest(g: Graph)
    requires LikeDiamond(g)
    ensures Children(g, "5", "1", 0, ["3"], ReachedD({"1", "2"})) == EnteredD3({"1", "2", "3"})
  {
    TraceD1Second(g);
  }

  lemma TraceD1Loop(g: Graph)
    requires LikeDiamond(g)
    ensures Children(g, "5", "1", 0, ["2", "3"], EnteredD1()) == EnteredD3({"1", "2", "3"})
  {
    TraceD1First(g);
    TraceD1Rest(g);
    assert ["2", "3"][1..] == ["3"];
  }

  lemma TraceD1(g: Graph)
    requires LikeDiamond(g)
    ensures Visit(g, "5", "1", 0, Fresh()) == EnteredD3({"1", "2", "3"})
  {
    assert Enter(g, "1", 0, Fresh()) == EnteredD1();
    TraceD1Loop(g);
  }

  /** The analyser as written returns {1, 2, 3} on the diamond. */
  lemma DiamondAsWritten()
    ensures Analyse(Diamond(), "1", "5") == Success({"1", "2", "3"})
  {
    TraceD1(Diamond());
  }

  /** ... although a path avoids 2, another avoids 3, and every path passes
      through 4, which the result leaves out. */
  lemma DiamondDiffers()
    ensures !MustPass(Diamond(), "1", "5", "2") && !MustPass(Diamond(), "1", "5", "3")
    ensures MustPass(Diamond(), "1", "5", "4")
  {
    var g := Diamond();
    assert IsWalk(g, ["1", "3", "4", "5"], "1", "5");
    assert IsWalk(g, ["1", "2", "4", "5"], "1", "5");
    CutMustPass(g, {"1", "2", "3"}, "1", "5", "4");
  }

  lemma DiamondMustPass()
    ensures AnalyseMustPass(Diamond(), "1", "5") == Success({"1", "4"})
  {
    var g := Diamond();
    SourceMustPass(g, "1", "5");
    CutMustPass(g, {"1", "2", "3"}, "1", "5", "4");
    MustPassResult(g, "1", "5", {"1", "4"}, ["1", "2", "4", "5"], ["1", "3", "4", "5"]);
  }

  // A dead-end branch beside the target: 1->2, 2->9, 1->4, e1 = 1, h = 4.

  function DeadEnd(): Graph {
    map["1" := ["2", "4"], "2" := ["9"], "9" := [], "4" := []]
  }

  /** What the search from 1 towards 4 reads of the graph. */
  ghost predicate LikeDeadEnd(g: Graph) {
    && WellFormed(g)
    && "1" in g && "2" in g && "9" in g && "4" in g
    && g["1"] == ["2", "4"] && g["2"] == ["9"] && g["9"] == []
  }

  function EnteredE1(): SearchState {
    SearchState({"1"}, map["1" := 0], map["1" := 0], {}, false)
  }

  function EnteredE2(): SearchState {
    var levels := map["1" := 0, "2" := 1];
    SearchState({"1", "2"}, levels, levels, {}, false)
  }

  function LeftE9(result: set<Node>): SearchState {
    var levels := map["1" := 0, "2" := 1, "9" := 2];
    SearchState({"1", "2", "9"}, levels, levels, result, false)
  }

  function ReachedE(): SearchState {
    var levels := map["1" := 0, "2" := 1, "9" := 2, "4" := 1];
    SearchState({"1", "2", "9", "4"}, levels, levels, {"1", "2"}, true)
  }

  lemma TraceE9(g: Graph)
    requires LikeDeadEnd(g)
    ensures Visit(g, "4", "9", 2, EnteredE2()) == LeftE9({})
  {
    assert Enter(g, "9", 2, EnteredE2()) == LeftE9({});
  }

  lemma TraceE2First(g: Graph)
    requires LikeDeadEnd(g)
    ensures Child(g, "4", "2", 1, "9", EnteredE2()) == LeftE9({"2"})
  {
    TraceE9(g);
    assert Lower("4", "2", "9", LeftE9({})) == LeftE9({"2"});
  }

  lemma TraceE2Loop(g: Graph)
    requires LikeDeadEnd(g)
    ensures Children(g, "4", "2", 1, ["9"], EnteredE2()) == LeftE9({"2"})
  {
    TraceE2First(g);
  }

  lemma TraceE2(g: Graph)
    requires LikeDeadEnd(g)
    ensures Visit(g, "4", "2", 1, EnteredE1()) == LeftE9({"2"})
  {
    assert Enter(g, "2", 1, EnteredE1()) == EnteredE2();
    TraceE2Loop(g);
  }

  lemma TraceE1First(g: Graph)
    requires LikeDeadEnd(g)
    ensures Child(g, "4", "1", 0, "2", EnteredE1()) == LeftE9({"1", "2"})
  {
    TraceE2(g);
    assert Lower("4", "1", "2", LeftE9({"2"})) == LeftE9({"1", "2"});
  }

  lemma TraceE1Second(g: Graph)
    requires LikeDeadEnd(g)
    ensures Child(g, "4", "1", 0, "4", LeftE9({"1", "2"})) == ReachedE()
  {
    assert Visit(g, "4", "4", 1, LeftE9({"1", "2"})) == ReachedE() by {
      assert Enter(g, "4", 1, LeftE9({"1", "2"})) == ReachedE().(hFound := false);
    }
    assert Lower("4", "1", "4", ReachedE()) == ReachedE();
  }

  lemma TraceE1Rest(g: Graph)
    requires LikeDeadEnd(g)
    ensures Children(g, "4", "1", 0, ["4"], LeftE9({"1", "2"})) == ReachedE()
  {
    TraceE1Second(g);
  }

  lemma TraceE1Loop(g: Graph)
    requires LikeDeadEnd(g)
    ensures Children(g, "4", "1", 0, ["2", "4"], EnteredE1()) == ReachedE()
  {
    TraceE1First(g);
    TraceE1Rest(g);
    assert ["2", "4"][1..] == ["4"];
  }

  lemma TraceE1(g: Graph)
    requires LikeDeadEnd(g)
    ensures Visit(g, "4", "1", 0, Fresh()) == ReachedE()
  {
    assert Enter(g, "1", 0, Fresh()) == EnteredE1();
    TraceE1Loop(g);
  }

  /** The analyser as written returns {1, 2} ... */
  lemma DeadEndAsWritten()
    ensures Analyse(DeadEnd(), "1", "4") == Success({"1", "2"})
  {
    TraceE1(DeadEnd());
  }

  /** ... although 2 is on no path to 4 at all. */
  lemma DeadEndDiffers()
    ensures !MustPass(DeadEnd(), "1", "4", "2")
    ensures !Reachable(DeadEnd(), "2", "4")
  {
    var g := DeadEnd();
    assert IsWalk(g, ["1", "4"], "1", "4");
    forall q | IsWalk(g, q, "2", "4")
      ensures "0" !in q
    {
      WalkInGraph(g, q, "2", "4");
    }
    CutMustPass(g, {"2", "9"}, "2", "4", "0");
  }

  lemma DeadEndMustPass()
    ensures AnalyseMustPass(DeadEnd(), "1", "4") == Success({"1"})
  {
    var g := DeadEnd();
    SourceMustPass(g, "1", "4");
    MustPassResult(g, "1", "4", {"1"}, ["1", "4"], ["1", "4"]);
  }
}

=== FILE: shortest_path.dfy ===
/**
  The breadth-first shortest-path finder of the articulation strategy
  (`_find_shortest_path` and `backtrace`).
 */
module ShortestPath {
  import opened Graphs
  import opened Paths

  /** The predecessor links recorded by the search: every node found after
      `source` has a predecessor one level closer to `source`, joined to it
      by an edge. `dist` is the level at which each node was found. */
  ghost predicate PredecessorTree(g: Graph, source: Node, pred: map<Node, Node>, dist: map<Node, nat>) {
    && source in dist && dist[source] == 0
    && pred.Keys == dist.Keys - {source}
    && forall v :: v in pred ==> pred[v] in dist && dist[pred[v]] + 1 == dist[v] && HasEdge(g, pred[v], v)
  }

  /** `u` has been expanded: every node it reaches is found, at most one
      level further out. */
  ghost predicate Expanded(g: Graph, dist: map<Node, nat>, u: Node) {
    && u in g && u in dist
    && forall j :: 0 <= j < |g[u]| ==> g[u][j] in dist && dist[g[u][j]] <= dist[u] + 1
  }

  /** The search state: `visited` holds the found nodes and `pred` their
      predecessors. */
  ghost predicate Searched(g: Graph, source: Node, visited: set<Node>, pred: map<Node, Node>, dist: map<Node, nat>) {
    visited == dist.Keys && visited <= g.Keys && PredecessorTree(g, source, pred, dist)
  }

  /** Levels found before stay as they were. */
  ghost predicate Keeps(dist0: map<Node, nat>, dist: map<Node, nat>) {
    forall v :: v in dist0 ==> v in dist && dist[v] == dist0[v]
  }

  /** While level `i` is expanded, `next` lists exactly the nodes found at
      level `i + 1`, which are the nodes found since `visited0`. */
  ghost predicate Building(dist: map<Node, nat>, i: nat, next: seq<Node>, visited0: set<Node>) {
    && visited0 <= dist.Keys
    && (forall v :: v in dist ==> dist[v] <= i + 1)
    && (forall v :: v in next <==> v in dist && dist[v] == i + 1)
    && (forall v :: v in dist && v !in visited0 ==> v in next)
    && (forall v :: v in next ==> v !in visited0)
  }

  /** `backtrace`: follows the predecessor links back from `end` to `start`
      and returns the nodes in forward order. */
  method Backtrace(pred: map<Node, Node>, start: Node, end: Node, ghost dist: map<Node, nat>)
    returns (path: seq<Node>)
    requires start in dist && dist[start] == 0 && end in dist
    requires forall v :: v in dist && v != start ==>
      v in pred && pred[v] in dist && dist[pred[v]] + 1 == dist[v]
    ensures |path| == dist[end] + 1
    ensures path[0] == start && path[|path| - 1] == end
    ensures forall j :: 0 <= j < |path| ==> path[j] in dist && dist[path[j]] == j
    ensures forall j :: 0 < j < |path| ==> path[j] in pred && pred[path[j]] == path[j - 1]
  {
    var rev := [end];
    while rev[|rev| - 1] != start
      invariant 1 <= |rev| <= dist[end] + 1
      invariant rev[0] == end
      invariant forall m :: 0 <= m < |rev| ==> rev[m] in dist && dist[rev[m]] + m == dist[end]
      invariant forall m :: 0 <= m < |rev| - 1 ==> rev[m] in pred && pred[rev[m]] == rev[m + 1]
      decreases dist[rev[|rev| - 1]]
    {
      var last := rev[|rev| - 1];
      rev := rev + [pred[last]];
    }
    assert dist[rev[|rev| - 1]] == 0;
    path := Reverse(rev);
    forall j | 0 < j < |path|
      ensures path[j] in pred && pred[path[j]] == path[j - 1]
    {
      var m := |rev| - 1 - j;
      assert path[j] == rev[m] && path[j - 1] == rev[m + 1];
    }
  }

  /** The inner loop over `G.neighbors(u)` for a node `u` of level `i`:
      records every unseen successor at level `i + 1`. */
  method ExpandNode(g: Graph, source: Node, u: Node, i: nat,
                    visited: set<Node>, pred: map<Node, Node>, next: seq<Node>,
                    ghost dist: map<Node, nat>, ghost visited0: set<Node>)
    returns (visited': set<Node>, pred': map<Node, Node>, next': seq<Node>, ghost dist': map<Node, nat>)
    requires WellFormed(g)
    requires u in dist && dist[u] == i
    requires Searched(g, source, visited, pred, dist)
    requires Building(dist, i, next, visited0)
    ensures Searched(g, source, visited', pred', dist')
    ensures Building(dist', i, next', visited0)
    ensures Keeps(dist, dist')
    ensures Expanded(g, dist', u)
    ensures visited <= visited'
    ensures forall j :: 0 <= j < |g[u]| ==> g[u][j] in visited'
    ensures forall v :: v in visited' && v !in visited ==> v in pred' && pred'[v] == u
    ensures forall v :: v in pred ==> v in pred' && pred'[v] == pred[v]
  {
    visited', pred', next', dist' := visited, pred, next, dist;
    var j := 0;
    while j < |g[u]|
      invariant 0 <= j <= |g[u]|
      invariant Searched(g, source, visited', pred', dist')
      invariant Building(dist', i, next', visited0)
      invariant Keeps(dist, dist')
      invariant forall m :: 0 <= m < j ==> g[u][m] in dist' && dist'[g[u][m]] <= i + 1
      invariant visited <= visited'
      invariant forall v :: v in visited' && v !in visited ==> v in pred' && pred'[v] == u
      invariant forall v :: v in pred ==> v in pred' && pred'[v] == pred[v]
    {
      var v := g[u][j];
      if v !in visited' {
        pred' := pred'[v := u];
        visited' := visited' + {v};
        dist' := dist'[v := i + 1];
        next' := next' + [v];
      }
      j := j + 1;
    }
  }

  /** The loop over `level[i]`: expands every node of the level and returns
      `level[i + 1]`. */
  method ExpandLevel(g: Graph, source: Node, frontier: seq<Node>, i: nat,
                     visited: set<Node>, pred: map<Node, Node>, ghost dist: map<Node, nat>)
    returns (next: seq<Node>, visited': set<Node>, pred': map<Node, Node>, ghost dist': map<Node, nat>)
    requires WellFormed(g)
    requires Searched(g, source, visited, pred, dist)
    requires forall v :: v in dist ==> dist[v] <= i
    requires forall v :: v in frontier <==> v in dist && dist[v] == i
    requires forall u :: u in dist && dist[u] < i ==> Expanded(g, dist, u)
    ensures Searched(g, source, visited', pred', dist')
    ensures visited <= visited'
    ensures forall v :: v in dist' ==> dist'[v] <= i + 1
    ensures forall v :: v in next <==> v in dist' && dist'[v] == i + 1
    ensures forall u :: u in dist' && dist'[u] < i + 1 ==> Expanded(g, dist', u)
    ensures next == [] ==> visited' == visited
    ensures forall v :: v in next ==> v in visited' && v !in visited
    ensures forall v :: v in visited' && v !in visited ==> v in next
    ensures Keeps(dist, dist')
  {
    next, visited', pred', dist' := [], visited, pred, dist;
    var k := 0;
    while k < |frontier|
      invariant 0 <= k <= |frontier|
      invariant Searched(g, source, visited', pred', dist')
      invariant Building(dist', i, next, visited)
      invariant Keeps(dist, dist')
      invariant forall u :: u in dist' && dist'[u] < i ==> Expanded(g, dist', u)
      invariant forall m :: 0 <= m < k ==> Expanded(g, dist', frontier[m])
    {
      ghost var before := dist';
      visited', pred', next, dist' := ExpandNode(g, source, frontier[k], i, visited', pred', next, dist', visited);
      assert forall u :: u in before && before[u] < i ==> Expanded(g, dist', u) by {
        forall u | u in before && before[u] < i
          ensures Expanded(g, dist', u)
        {
          assert Expanded(g, before, u);
        }
      }
      k := k + 1;
    }
  }

  /** With every found node expanded, any walk from `source` ends at a found
      node whose level is at most the walk's number of edges. */
  lemma {:induction false} WalkWithinLevels(g: Graph, dist: map<Node, nat>, source: Node, q: seq<Node>, t: Node)
    requires source in dist && dist[source] == 0
    requires dist.Keys <= g.Keys
    requires forall u :: u in dist ==> Expanded(g, dist, u)
    requires IsWalk(g, q, source, t)
    ensures t in dist && dist[t] <= |q| - 1
    decreases |q|
  {
    if |q| > 1 {
      var u := q[|q| - 2];
      var q' := q[..|q| - 1];
      assert IsWalk(g, q', source, u) by {
        forall i | 0 <= i < |q'| - 1
          ensures HasEdge(g, q'[i], q'[i + 1])
        {
          assert q'[i] == q[i] && q'[i + 1] == q[i + 1];
        }
      }
      WalkWithinLevels(g, dist, source, q', u);
      assert HasEdge(g, u, t);
      var j :| 0 <= j < |g[u]| && g[u][j] == t;
      assert Expanded(g, dist, u);
    }
  }

  /** `_find_shortest_path`: level-by-level breadth-first search from
      `source`, where a node keeps the predecessor that found it first. The
      result is empty exactly when `target` cannot be reached; otherwise it
      is a simple path from `source` to `target` no longer than any walk
      between them. */
  method FindShortestPath(g: Graph, source: Node, target: Node) returns (path: seq<Node>)
    requires WellFormed(g)
    requires source in g
    ensures path == [] <==> !Reachable(g, source, target)
    ensures path != [] ==> IsSimplePath(g, path, source, target)
    ensures path != [] ==> forall q :: IsWalk(g, q, source, target) ==> |path| <= |q|
  {
    var frontier := [source];
    var visited := {source};
    var pred: map<Node, Node> := map[];
    ghost var dist: map<Node, nat> := map[source := 0];
    var i: nat := 0;
    while frontier != []
      invariant Searched(g, source, visited, pred, dist)
      invariant forall v :: v in dist ==> dist[v] <= i
      invariant forall v :: v in frontier <==> v in dist && dist[v] == i
      invariant forall u :: u in dist && dist[u] < i ==> Expanded(g, dist, u)
      decreases g.Keys - visited, |frontier|
    {
      ghost var visited0 := visited;
      var next;
      next, visited, pred, dist := ExpandLevel(g, source, frontier, i, visited, pred, dist);
      if next != [] {
        assert next[0] in visited && next[0] !in visited0;
      }
      frontier := next;
      i := i + 1;
    }
    assert forall u :: u in dist ==> Expanded(g, dist, u) by {
      forall u | u in dist
        ensures Expanded(g, dist, u)
      {
        assert dist[u] < i;
      }
    }
    if target in visited {
      path := Backtrace(pred, source, target, dist);
      assert IsWalk(g, path, source, target) by {
        forall j | 0 <= j < |path| - 1
          ensures HasEdge(g, path[j], path[j + 1])
        {
          assert pred[path[j + 1]] == path[j];
        }
      }
      forall q | IsWalk(g, q, source, target)
        ensures |path| <= |q|
      {
        WalkWithinLevels(g, dist, source, q, target);
      }
    } else {
      path := [];
      forall q | IsWalk(g, q, source, target)
        ensures false
      {
        WalkWithinLevels(g, dist, source, q, target);
      }
    }
  }
}
